=== FILE: README.md ===
# Stokes' theorem engine — a Dafny model

This project models the numerical core of a small web application that illustrates Stokes' theorem. A user enters:

- a vector field `F = (Fx, Fy, Fz)`;
- a parametric surface `R(u, v)` over a rectangle of parameters.

The application computes both sides of the theorem:

- the flux of `curl F` through the surface, as a Riemann sum over parameter cells;
- the circulation of `F` along the boundary of the surface, as a sum over a sampled polygon.

It then draws the surface as a triangle mesh and draws the field as arrows with pyramid tips.

The model covers the following parts of the source:

- **`public/static/math_.js`:**
  - the forward-difference `partial_derivative`;
  - the `Field` class: `cfunc`, `get_vector`, `get_curl` and `sample`, with the cubic lattice `sample_cubic_space`;
  - the `ParametricSurface` class: `cfunc`, `sample`, `boundary_curve`, `boundary_integral`, `normal_at` and `curl_integral`.
- **`api/static/opengl.js`:**
  - the index arithmetic of `Drawer.tesellate_surface`;
  - the index arithmetic of `Drawer.draw_tips`.

All arithmetic is over Dafny's `real`:

- Points and vectors are triples `Vec3 = seq<real>` of length 3.
- User formulas are function values `seq<real> -> real`, applied to the argument list the source spreads into them.
- The forward-difference step `eps` is an arbitrary positive real (`Step`).
- `math.add`, `math.subtract`, `math.dot` and `math.cross` have their textbook definitions (`VectorMath`).

Every `for (u = a; u <= b; u += r)` loop is modelled in two layers:

- The sampling operations (`Sample`, `BoundaryCurve`, `CurlIntegral`) take the values the loop variable holds at each guard test as a sequence argument. Their contracts hold whatever those values are.
- The `...Over` methods build those values with an exact sweep over the reals (`Sweeps.Sweep`, `Sweeps.StrictSweep`): value `k` is `a + k * r`, and the trip count is `floor((b - a) / r) + 1` for `<=` and `ceil((b - a) / r)` for `<`. These methods state the end-to-end shape in terms of the ranges.

Modules:

| module | file | models |
|---|---|---|
| `VectorMath` | vector_math.dfy | the vector library calls |
| `Seqs` | seqs.dfy | `Array.prototype.flat`, the reversal built by `unshift`, and the row-major position `i * m + k` |
| `Sweeps` | sweeps.dfy | the loop sweeps, `round_to(x, 2)`, and the as-written sampling sweep of the finding below |
| `FiniteDifference` | finite_difference.dfy | `partial_derivative` |
| `VectorField` | vector_field.dfy | `Field` and `sample_cubic_space` |
| `ParametricSurface` | parametric_surface.dfy | `ParametricSurface` |
| `Drawer` | drawer.dfy | `tesellate_surface` and the tip indices of `draw_tips` |

Three consequences of the code that are easy to misread:

- **No closing segment.** `boundary_integral` stops at `i < length - 1`, so `(i + 1) % length` never wraps and no segment from the last point back to the first is added (`OpenCirculation`).
  - On a non-empty rectangle (`ur[0] <= ur[1]` and `vr[0] <= vr[1]`) this does no harm: `boundary_curve` does not de-duplicate corners, so its last point equals its first and that segment would be zero.
  - The model proves both halves of that argument: `ParametricSurface.BoundaryCurveOver` (closure on a non-empty rectangle) and `ParametricSurface.ClosingSegmentVanishes`.
  - When exactly one range is empty the curve is not closed and the dropped segment is not zero. For example, `ur = [1, 0]`, `vr = [0, 1]` with rate 1 gives only the two `v` edges, `[R(0,0), R(0,1), R(1,1), R(1,0)]`, so the segment from `R(1,0)` back to `R(0,0)` is missing from the sum.
- **Curve length.** `boundary_curve` returns `2 (n_u + n_v)` points, because each corner appears twice.
- **Curl of the start-up field.** The start-up field `(x, y + z, z)` has curl `(-1, 0, 0)`, because `dFy/dz = 1` (`VectorField.StartupFieldCurl`). Its flux through the flat square `(u, v, 0)` is zero, because that curl is perpendicular to the normal `(0, 0, 1)` (`ParametricSurface.StartupFieldFlatSquareFlux`).

## Model

| member | source | states |
|---|---|---|
| VectorMath.CrossIsOrthogonal | public/static/math_.js:192 | `math.cross(a, b)` is perpendicular to both `a` and `b` |
| VectorMath.CrossIsAntiCommutative | public/static/math_.js:192 | swapping the arguments of the cross product negates it |
| VectorMath.BasisExamples | public/static/math_.js:192 | the cross product is right-handed: `x × y = z`; the dot product is the sum of products (`(1,2,3)·(4,5,6) = 32`) |
| VectorMath.DotTelescopes | public/static/math_.js:181-184 | `w·(q−p) + w·(s−q) = w·(s−p)`: consecutive tangent terms of a fixed vector telescope |
| VectorMath.AddThenSub | public/static/math_.js:115 | subtracting the start from `start + vector` gives back the vector |
| FiniteDifference.PerturbMovesOneCoordinate | public/static/math_.js:54-57 | the shifted copy `p1` has the length of `p`, moves coordinate `i` by exactly `eps` and leaves every other coordinate alone |
| FiniteDifference.PartialVecIsComponentwise | public/static/math_.js:54-58 | for a triple-valued function the difference quotient is the scalar quotient of each component |
| FiniteDifference.PartialAlongIgnoredAxis | public/static/math_.js:54-58 | a formula that does not read coordinate `i` has difference quotient exactly 0 along `i` |
| FiniteDifference.PartialOfAffine | public/static/math_.js:54-58 | on an affine formula `c + a·p` the forward difference returns `a[i]` exactly, for every point and step |
| FiniteDifference.PartialOfPlus | public/static/math_.js:54-58 | the difference quotient of a sum of formulas is the sum of their quotients |
| Sweeps.IdealTripCount | public/static/math_.js:63 | `floor((b−a)/r)+1` (or 0 when `b < a`) is the trip count of `u <= b` sweeps: every visited value passes the guard and the next one fails it |
| Sweeps.InclusiveTripsUnique | public/static/math_.js:63 | an inclusive sweep has only one trip count |
| Sweeps.NarrowRangeSampledOnce | public/static/math_.js:63-65 | a range narrower than one step is sampled once, at its lower end |
| Sweeps.WholeStepRange | public/static/math_.js:133-135 | a range of `m` whole steps gives `m + 1` values under `<=` and `m` under `<` |
| Sweeps.Sweep | public/static/math_.js:63-65 | the exact `<=` sweep visits `IdealTripCount` values `a + k r`, all inside `[a, b]` |
| Sweeps.StrictTripCount | public/static/math_.js:201 | `ceil((b−a)/r)` (or 0 when `b <= a`) is the trip count of `u < b` sweeps |
| Sweeps.ExclusiveTripsUnique | public/static/math_.js:201 | a strict sweep has only one trip count |
| Sweeps.StrictSweep | public/static/math_.js:201-202 | the exact `<` sweep visits `StrictTripCount` values `a + k r`, all inside `[a, b)` |
| Sweeps.WholeStepCells | public/static/math_.js:201-202 | on `m` whole steps the `<` sweep of `curl_integral` has `m` values and the `<=` sweep of `sample` has `m + 1` |
| Sweeps.RoundHundredthsIsNear | public/static/math_.js:9-11 | `round_to(x, 2)` lands within half a hundredth of `x` |
| Sweeps.RoundHundredthsIdempotent | public/static/math_.js:137-138 | rounding a rounded value changes nothing |
| Sweeps.RoundHundredthsFixes | public/static/math_.js:9-11 | a whole number of hundredths rounds to itself |
| Sweeps.SnappedSweepStalls | public/static/math_.js:135-138 | as written, with a rate below 0.005 the inner loop variable of `sample`, started on a hundredth, is stuck at `v0 + rate` from its second guard test on |
| Sweeps.SnappedSweepIsExactOnHundredths | public/static/math_.js:135-138 | started on a hundredth with a rate that is a whole number of hundredths (`sample` is always called with the rate 0.1, main.js:91), the as-written rounded loop variable equals the exact sweep value `v0 + t·rate` at every guard test |
| Sweeps.SnappedSweepStallsAtZero | public/static/math_.js:135-138 | the concrete case `v0 = 0`, `rate = 0.004`: every guard test after the first sees `0.004` |
| Sweeps.SnappedSweepDrifts | public/static/math_.js:135-138 | as written, a rate of 0.007 from `0` puts the loop variable at `0.017` on the second guard test, where the exact sweep is at `0.014`: rates that are not whole hundredths drift |
| Seqs.Reverse | public/static/math_.js:166 | the list built by repeated `unshift` is the pushed list read back to front |
| VectorField.Field.GetVectorFollowsField | public/static/math_.js:82-86 | `get_vector(p, scaler)` is parallel to `F(p)` (zero cross product), projects onto `F(p)` as `scaler ‖F(p)‖²`, is additive in the scaler, and is `F(p)` itself at the default scaler 1 |
| VectorField.CurlIsPermutationContraction | public/static/math_.js:88-101 | the six-partial assembly of `get_curl` is the permutation-symbol contraction `Σ ε_ijk ∂F_k/∂x_j` of the forward-difference Jacobian |
| VectorField.CurlOfOwnAxisFieldIsZero | public/static/math_.js:88-101 | a field whose components each depend on their own coordinate only has curl exactly `(0, 0, 0)` |
| VectorField.CurlOfAffineField | public/static/math_.js:88-101 | on an affine field `c + M p` the curl is exactly `(M21−M12, M02−M20, M10−M01)` |
| VectorField.CurlIsAdditive | public/static/math_.js:88-101 | the curl of a sum of fields is the sum of their curls |
| VectorField.CurlIgnoresOwnAxisTerms | public/static/math_.js:88-101 | adding own-axis terms to a field leaves its curl unchanged |
| VectorField.StartupFieldCurl | public/static/main.js:142-146 | the start-up field `(x, y+z, z)` has curl exactly `(−1, 0, 0)` at every point |
| VectorField.CubicSpaceLength | public/static/math_.js:61-71 | `sample_cubic_space` over `n` values per axis emits `n³` points |
| VectorField.CubicSpacePoint | public/static/math_.js:61-71 | lattice point `(a, b, c)` sits at position `(a n + b) n + c`: `x` outermost, `z` innermost |
| VectorField.CubicSpaceLayout | public/static/math_.js:61-71 | the whole layout: `n³` points, each `[xs[a], xs[b], xs[c]]` at its row-major position |
| VectorField.CubicSpaceCoordinates | public/static/math_.js:61-71 | every coordinate of every lattice point is one of the sweep values |
| VectorField.Sample | public/static/math_.js:107-118 | one segment per lattice point, in lattice order, starting at the point; tip minus start is `scaler · F(point)` |
| VectorField.SampleOver | public/static/math_.js:107-118 | over a range with step `1/density`: `N³` segments, lattice point `(a,b,c)` at `lo + (a,b,c)/density`, every start inside the cube, tip minus start `scaler · F(start)` |
| ParametricSurface.Sample | public/static/math_.js:129-145 | one row per `u` value, each with one entry per `v` value; entry `(i, j)` is `R` at the two-place roundings of `us[i]` and `vs[j]` |
| ParametricSurface.SampleOver | public/static/math_.js:133-140 | corrected sampling: `N_u` rows of `N_v` entries, entry `(i, j)` is `R` at the rounded `(u_lo + i r, v_lo + j r)`, and the sweeps terminate |
| ParametricSurface.BoundaryCurve | public/static/math_.js:159-172 | the curve is `s1 ++ s2 ++ s3 ++ s4`: the `v_lo` and `u_hi` edges forward, the `v_hi` and `u_lo` edges reversed; `2 (n_u + n_v)` points; closed when both sweeps start at the lower ends |
| ParametricSurface.BoundaryCurveOver | public/static/math_.js:147-172 | over exact sweeps: `2 (N_u + N_v)` points, the first at `R(u_lo, v_lo)` and the last equal to the first on a non-empty rectangle |
| ParametricSurface.BoundaryIntegral | public/static/math_.js:175-187 | the sum `Σ_{i ≤ len−2} F(p_i)·(p_{i+1} − p_i)`: no wrap-around term, and 0 for curves of at most one point |
| ParametricSurface.ClosingSegmentVanishes | public/static/math_.js:178-180 | when the last point repeats the first, the missing closing segment would add nothing, so the open sum equals the closed-contour sum |
| ParametricSurface.ConstantFieldTelescopes | public/static/math_.js:175-187 | for a constant field `w` the boundary sum is `w · (p_last − p_0)` |
| ParametricSurface.NormalIsOrthogonalToTangents | public/static/math_.js:189-194 | `normal_at(u, v)` is perpendicular to both forward-difference tangents |
| ParametricSurface.TangentsOfAffineSurface | public/static/math_.js:189-191 | on an affine surface `o + u a + v b` the two forward differences are exactly `a` and `b` |
| ParametricSurface.NormalOfAffineSurface | public/static/math_.js:189-194 | on an affine surface the unnormalised normal is exactly `a × b` |
| ParametricSurface.FlatSquareNormal | public/static/math_.js:189-194 | the surface `(u, v, 0)` has normal exactly `(0, 0, 1)` everywhere |
| ParametricSurface.CellFluxOfUniformCurl | public/static/math_.js:203-211 | a field whose difference curl is the same `c` everywhere gives each cell the term `c · normal(u, v) · r²`, the normal taken at the cell's corner |
| ParametricSurface.CellFluxOnAffineSurface | public/static/math_.js:203-211 | on an affine surface `o + u a + v b` a uniform curl `c` gives each cell exactly `c · (a × b) r²`, the flux through the cell's parallelogram of sides `r a` and `r b` |
| ParametricSurface.CurlRow | public/static/math_.js:202-212 | the inner loop adds the row's cell terms to the running sum and the row's markers to the list |
| ParametricSurface.MarkerLayout | public/static/math_.js:206-209 | the markers of a `n_u × n_v` grid of cells: `n_u n_v` entries, cell `(i, j)` at `i n_v + j` |
| ParametricSurface.CurlIntegral | public/static/math_.js:196-215 | `int` is the sum of exactly one term per cell, visited row by row; `norms` holds exactly one marker per cell, in the same order |
| ParametricSurface.CurlIntegralOver | public/static/math_.js:196-215 | over exact strict sweeps: `StrictTripCount_u × StrictTripCount_v` cells with corners `(u_lo + i r, v_lo + j r)` |
| ParametricSurface.FluxOfNullCells | public/static/math_.js:210-211 | if every cell term is zero the flux sum is zero |
| ParametricSurface.RowFluxOfNullCells | public/static/math_.js:210-211 | the same along one row |
| ParametricSurface.FluxOfCurlFreeField | public/static/math_.js:196-215 | a field whose curl vanishes everywhere has flux 0 through every surface, whatever the normals: the markers never enter the sum |
| ParametricSurface.FluxOfOwnAxisField | public/static/math_.js:196-215 | fields whose components each depend on their own axis only have flux 0 |
| ParametricSurface.StartupFieldFlatSquareFlux | public/static/math_.js:196-215 | the start-up field has flux 0 through the flat square |
| ParametricSurface.StokesAgreesOnConstantFields | public/static/math_.js:175-215 | for a constant field both sides agree exactly: the flux is 0, and the circulation along any curve ending where it starts is 0 |
| Drawer.TessellateSurface | api/static/opengl.js:275-291 | the result is an error exactly when the grid has no rows; otherwise the vertices are the grid flattened twice and the indices are the cells' triangle blocks in visiting order |
| Drawer.CellsAreSixIndices | api/static/opengl.js:286-287 | each visited cell contributes a block of six indices, `h − 1` rows of `w − 1` cells |
| Drawer.TessellationLength | api/static/opengl.js:279-289 | an `h × w` grid gives `6 (h−1)(w−1)` indices, and a single row or column gives none |
| Drawer.TessellationCellLayout | api/static/opengl.js:279-288 | index `t` of cell `(i, j)` sits at `6 (i (w−1) + j) + t`; the cell lists `(a, a+1, a+w)` then `(a+1, a+w+1, a+w)` with `a = i w + j` |
| Drawer.CellIndicesInGrid | api/static/opengl.js:281-287 | the six indices of every visited cell lie in `[0, w h)` |
| Drawer.TessellationIndicesInRange | api/static/opengl.js:281-287 | every emitted index names a vertex: it lies in `[0, w h)` |
| Drawer.TessellationReachesLastVertex | api/static/opengl.js:281-287 | on a grid of at least 2 × 2 the second-last index is `d` of the last cell, `w h − 1`, the largest allowed |
| Drawer.CornerOfCell | api/static/opengl.js:281-284 | the four corners `a, b, c, d` of the cell with top-left `(i, j)` are the grid vertices `(i, j)`, `(i, j+1)`, `(i+1, j)`, `(i+1, j+1)` |
| Drawer.TessellationCoversEveryVertex | api/static/opengl.js:279-288 | on a grid of at least 2 × 2 every vertex `i w + j` is a corner of some emitted triangle |
| Drawer.VertexLayout | api/static/opengl.js:290 | on a rectangular grid the vertex list holds `h w 3` numbers; vertex `k = i w + j` (so `i = k / w`, `j = k % w`) is `samples[i][j]`, its coordinate `c` at `3 k + c` |
| Drawer.TipPatternUsesEveryVertex | api/static/opengl.js:328 | the 18-entry tip pattern names exactly the pyramid's five vertices `0..4`, each of them |
| Drawer.TipTrianglesAreProper | api/static/opengl.js:328 | each of the pattern's six triangles has three different corners |
| Drawer.TipIndicesLayout | api/static/opengl.js:342-345 | the shifted blocks of `n` tips: `18 n` indices, entry `t` of tip `i` at `18 i + t`, all below `5 n` |
| Drawer.TipIndices | api/static/opengl.js:342-345 | `draw_tips` over `n` vectors emits `18 n` indices; those of vector `i` are the pattern shifted by `5 i`, inside its own five vertices, all below the `5 n` uploaded |

## Left out

- Rendering. The WebGL controller, buffer uploads, `draw_elements`/`draw_arrays`, the shaders and the camera are not modelled. Only the index lists handed to them are.
- Floating point:
  - All arithmetic is over the reals, so rounding error and the drift of `u += sample_rate` are not represented.
  - The value `eps = Number.EPSILON * 120` is not represented: any positive step is allowed.
  - Whether the two integrals agree numerically for a general surface is an approximation question and is not claimed. Exact agreement is proved only for constant fields.
- `round_to` works by building a decimal string. It is modelled for two places only, as `floor(100 x + 1/2) / 100`, which is `Math.round`'s rounding of halves toward `+∞`. No other precision is used by the modelled code.
- Sweeps.Sweep: requires `r > 0`. In the source, when `a <= b`, a zero or negative rate makes the `<=` loop run forever (the strict loops likewise when `a < b`); when the range is empty the body never runs, whatever the rate. The requirement stands because `sample_rate` is always a positive literal in the callers. Sweeps.StrictSweep, ParametricSurface.SampleOver, ParametricSurface.BoundaryCurveOver and ParametricSurface.CurlIntegralOver carry the same requirement for the same reason.
- VectorField.SampleOver: requires `density > 0`. In JavaScript, when `range[0] <= range[1]`, `density = 0` gives the step `Infinity`, so each axis is sampled once, and a negative density never terminates; an empty range yields no points whatever the density. Neither non-positive case is modelled.
- ParametricSurface.CurlIntegral, ParametricSurface.CurlIntegralOver, ParametricSurface.CurlRow, ParametricSurface.MarkerLayout: every `NormalMarker` in the module keeps the raw normal (`NormalMarker(at, normal)`) instead of the drawn tip `cartesian + normal / (2‖normal‖)`, because the norm needs a square root. The sum `int` is modelled exactly.
- `pyramid_vertices` geometry is not modelled, because it divides by `math.norm`. Only its vertex count, five (apex and four base corners), enters the `draw_tips` index bound.
- `derivative` is unused, and it divides by `n` instead of `eps`.
- `get_divergence` passes each component a single argument, so the other coordinates are `undefined` and it has no real-valued meaning.
- `normalize` in `opengl.js` is unreferenced.
- Index width. The indices are uploaded as `Uint16Array` and wrap past 65535. The code never checks this, and the model states the unbounded indices.
- `for (const i in vectors)` iterates string keys. `x + i * 5` is still numeric because `*` converts `i` first, and the model uses the numeric index.
- The orchestration in `public/static/main.js` is context only. So are the input parsing in `public/static/inputs.js` and the static file server in `api/index.py`. The start-up field of `main.js` is used as an example (`VectorField.StartupField`).
- The `sample_rate = 0.1` and `scaler = 1` default arguments are explicit parameters. `boundary_integral`'s call `get_vector(...vi)` uses the default scaler, modelled as `1.0`.
- ParametricSurface.Sample: the outer loop variable `u` is also overwritten by `round_to(u, 2)` in the source, so the values `us` it is given are the loop's actual guard-test values whatever they are. The stall is modelled for the inner loop only (`Sweeps.SnappedSweepStalls`).

## Findings

| source | as written | input that shows it | evidently intended | confidence | as-written member | corrected member |
|---|---|---|---|---|---|---|
| public/static/math_.js:135-138 | the inner loop of `sample` stores `round_to(v, 2)` back into its own loop variable before `v += sample_rate`; a rate below 0.005 is rounded away on every trip, and a rate at or above 0.005 that is not a whole number of hundredths drifts from the exact sweep | `sample_rate = 0.004`, `vr = [0, 1]`: `v` goes `0 → 0.004 → 0.004 → …` because `round_to(0.004, 2) = 0`; the guard `v <= 1` holds forever | the loop variables advance by exactly `sample_rate`, and only the coordinates passed to `cfunc` are rounded | not executed | Sweeps.SnappedSweepStalls, Sweeps.SnappedSweepDrifts | ParametricSurface.SampleOver |

=== FILE: drawer.dfy ===
/**
 The index arithmetic of the renderer's `Drawer`: the triangle mesh that
 `tesellate_surface` builds over a sample grid, and the per-vector index
 offsets `draw_tips` gives its pyramid tips. The GL buffer uploads and draw
 calls around them are not modelled.
 */
module Drawer {
  import opened VectorMath
  import opened Seqs

  // ---------------------------------------------------------------------------
  // Surface tessellation

  /** What `tesellate_surface` produces: the flattened vertex coordinates and the triangle
      index list, or the failure of reading `samples[0].length` on a grid with no rows. */
  datatype Tessellation = Mesh(vertices: seq<real>, indices: seq<int>) | EmptyGrid

  /** The number of cells along a row of `w` samples: the inner loop runs `j < w - 1`. */
  function CellsAlong(w: nat): nat
  {
    if w == 0 then 0 else w - 1
  }

  /** The two triangles of the cell whose top-left vertex is `a` on a grid of width `w`:
      `(a, b, c)` and `(b, d, c)` with `b = a + 1`, `c = a + w`, `d = c + 1`. */
  function CellTriangles(a: int, w: nat): seq<int>
  {
    [a, a + 1, a + w, a + 1, a + w + 1, a + w]
  }

  /** The triangles of the first `n` cells of row `i`, one block of six per cell. */
  function CellRow(i: nat, w: nat, n: nat): (row: seq<seq<int>>)
    ensures |row| == n
  {
    seq(n, j requires 0 <= j < n => CellTriangles(RowMajor(i, j, w), w))
  }

  /** The cell rows of the first `rows` grid rows. */
  function CellGrid(w: nat, rows: nat): (grid: seq<seq<seq<int>>>)
    ensures |grid| == rows && Uniform(grid, CellsAlong(w))
  {
    seq(rows, i requires 0 <= i < rows => CellRow(i, w, CellsAlong(w)))
  }

  /** The indices of an `h`-row grid of width `w`: the cells' blocks of six, in visiting order. */
  function TriangleIndices(w: nat, h: nat): seq<int>
    requires h >= 1
  {
    Flatten(Flatten(CellGrid(w, h - 1)))
  }

  /** `Drawer.tesellate_surface(samples)`: the vertices are the grid flattened twice; the
      indices are two triangles per cell, visited row by row, computed from the width `w` of
      the first row and the number of rows `h`. */
  method TessellateSurface(samples: seq<seq<Vec3>>) returns (t: Tessellation)
    ensures t.EmptyGrid? <==> |samples| == 0
    ensures t.Mesh? ==> t.vertices == Flatten(Flatten(samples))
    ensures t.Mesh? ==> t.indices == TriangleIndices(|samples[0]|, |samples|)
  {
    if |samples| == 0 {
      return EmptyGrid;
    }
    var w := |samples[0]|;
    var h := |samples|;
    var indices: seq<int> := [];
    var i := 0;
    while i < h - 1
      invariant 0 <= i <= h - 1
      invariant indices == Flatten(Flatten(CellGrid(w, i)))
    {
      var j := 0;
      ghost var rowStart := indices;
      while j < w - 1
        invariant 0 <= j && j <= CellsAlong(w)
        invariant indices == rowStart + Flatten(CellRow(i, w, j))
      {
        var a := i * w + j;
        var b := a + 1;
        var c := a + w;
        var d := c + 1;
        indices := indices + [a, b, c];
        indices := indices + [b, d, c];
        CellRowStep(i, w, j);
        j := j + 1;
      }
      CellGridStep(w, i);
      i := i + 1;
    }
    t := Mesh(Flatten(Flatten(samples)), indices);
  }

  /** One more cell appends its six indices. */
  lemma CellRowStep(i: nat, w: nat, j: nat)
    ensures Flatten(CellRow(i, w, j + 1)) == Flatten(CellRow(i, w, j)) + CellTriangles(i * w + j, w)
  {
    assert CellRow(i, w, j + 1) == CellRow(i, w, j) + [CellTriangles(RowMajor(i, j, w), w)];
    FlattenSnoc(CellRow(i, w, j), CellTriangles(RowMajor(i, j, w), w));
  }

  /** One more grid row appends the indices of its cells. */
  lemma CellGridStep(w: nat, i: nat)
    ensures Flatten(Flatten(CellGrid(w, i + 1))) == Flatten(Flatten(CellGrid(w, i))) + Flatten(CellRow(i, w, CellsAlong(w)))
  {
    assert CellGrid(w, i + 1) == CellGrid(w, i) + [CellRow(i, w, CellsAlong(w))];
    FlattenSnoc(CellGrid(w, i), CellRow(i, w, CellsAlong(w)));
    FlattenConcat(Flatten(CellGrid(w, i)), CellRow(i, w, CellsAlong(w)));
  }

  /** The cells of the grid, in visiting order, each a block of six indices. */
  lemma CellsAreSixIndices(w: nat, rows: nat)
    ensures |Flatten(CellGrid(w, rows))| == rows * CellsAlong(w)
    ensures Uniform(Flatten(CellGrid(w, rows)), 6)
  {
    var grid := CellGrid(w, rows);
    FlattenUniformLength(grid, CellsAlong(w));
    FlattenKeeps(grid, (b: seq<int>) => |b| == 6);
  }

  /** An `h`-row grid of width `w` yields `6 * (h - 1) * (w - 1)` indices; a single row or a
      single column yields none. */
  lemma TessellationLength(w: nat, h: nat)
    requires h >= 1
    ensures |TriangleIndices(w, h)| == 6 * (h - 1) * CellsAlong(w)
    ensures h == 1 || w <= 1 ==> |TriangleIndices(w, h)| == 0
  {
    var cells := Flatten(CellGrid(w, h - 1));
    CellsAreSixIndices(w, h - 1);
    FlattenUniformLength(cells, 6);
    assert |cells| * 6 == 6 * (h - 1) * CellsAlong(w);
  }

  /** Index `t` of cell `(i, j)` sits at position `6 * (i * (w - 1) + j) + t`: cells are
      visited row-major, each contributing `(a, a+1, a+w)` then `(a+1, a+w+1, a+w)` with
      `a = i * w + j`. */
  lemma TessellationCellLayout(w: nat, h: nat, i: nat, j: nat, t: nat)
    requires h >= 1 && i < h - 1 && j < CellsAlong(w) && t < 6
    ensures RowMajor(RowMajor(i, j, CellsAlong(w)), t, 6) < |TriangleIndices(w, h)|
    ensures TriangleIndices(w, h)[RowMajor(RowMajor(i, j, CellsAlong(w)), t, 6)]
         == CellTriangles(RowMajor(i, j, w), w)[t]
  {
    var grid := CellGrid(w, h - 1);
    var cells := Flatten(grid);
    FlattenUniformElement(grid, CellsAlong(w), i, j);
    CellsAreSixIndices(w, h - 1);
    FlattenUniformElement(cells, 6, RowMajor(i, j, CellsAlong(w)), t);
  }

  /** Every index of the cell at `(i, j)` names a vertex of the `h`-row grid of width `w`. */
  lemma CellIndicesInGrid(w: nat, h: nat, i: nat, j: nat)
    requires i < h - 1 && j < CellsAlong(w)
    ensures forall t :: 0 <= t < 6 ==> 0 <= CellTriangles(RowMajor(i, j, w), w)[t] < w * h
  {
    var a := RowMajor(i, j, w);
    assert a + w + 1 == (i + 1) * w + (j + 1);
    assert (i + 1) * w <= (h - 1) * w;
    assert (h - 1) * w + w == w * h;
  }

  /** Every index `tesellate_surface` emits names a vertex of an `h`-row grid of width `w`:
      it lies in `[0, w * h)`. */
  lemma TessellationIndicesInRange(w: nat, h: nat)
    requires h >= 1
    ensures forall k :: 0 <= k < |TriangleIndices(w, h)| ==>
      0 <= TriangleIndices(w, h)[k] < w * h
  {
    var grid := CellGrid(w, h - 1);
    var inRange := (x: int) => 0 <= x < w * h;
    forall i, j | 0 <= i < |grid| && 0 <= j < |grid[i]|
      ensures forall t :: 0 <= t < |grid[i][j]| ==> inRange(grid[i][j][t])
    {
      CellIndicesInGrid(w, h, i, j);
    }
    FlattenKeeps(grid, (b: seq<int>) => forall t :: 0 <= t < |b| ==> inRange(b[t]));
    FlattenKeeps(Flatten(grid), inRange);
  }

  /** On a grid of at least two rows and two columns the second-last index is `d` of the last
      cell, `w * h - 1`: the bottom-right vertex, the largest index in range. */
  lemma TessellationReachesLastVertex(w: nat, h: nat)
    requires h >= 2 && w >= 2
    ensures |TriangleIndices(w, h)| >= 2
    ensures TriangleIndices(w, h)[|TriangleIndices(w, h)| - 2] == w * h - 1
  {
    var cw := CellsAlong(w);
    TessellationLength(w, h);
    TessellationCellLayout(w, h, h - 2, cw - 1, 4);
    assert RowMajor(h - 2, cw - 1, cw) == (h - 1) * cw - 1;
    assert RowMajor(RowMajor(h - 2, cw - 1, cw), 4, 6) == 6 * (h - 1) * cw - 2;
    assert RowMajor(h - 2, cw - 1, w) + w + 1 == w * h - 1;
  }

  /** On a grid of at least two rows and two columns every vertex is a corner of some
      triangle: vertex `(i, j)` is a corner of the cell whose top-left it is, or of the cell
      to its left, or of the cell above, or of the cell above and to the left. */
  lemma TessellationCoversEveryVertex(w: nat, h: nat, i: nat, j: nat)
    requires h >= 2 && w >= 2 && i < h && j < w
    ensures RowMajor(i, j, w) in TriangleIndices(w, h)
  {
    var ci: nat := if i < h - 1 then i else i - 1;
    var cj: nat := if j < w - 1 then j else j - 1;
    var t: nat := if i < h - 1 then (if j < w - 1 then 0 else 1) else (if j < w - 1 then 2 else 4);
    TessellationCellLayout(w, h, ci, cj, t);
    CornerOfCell(w, ci, cj, i - ci, j - cj);
    var pos := RowMajor(RowMajor(ci, cj, CellsAlong(w)), t, 6);
    assert TriangleIndices(w, h)[pos] == RowMajor(i, j, w);
  }

  /** The corner `(ci + di, cj + dj)` of the cell with top-left `(ci, cj)`, for `di, dj` in
      `{0, 1}`, is the cell's triangle entry `0`, `1`, `2` or `4`. */
  lemma CornerOfCell(w: nat, ci: nat, cj: nat, di: nat, dj: nat)
    requires di <= 1 && dj <= 1
    ensures CellTriangles(RowMajor(ci, cj, w), w)[if di == 0 then (if dj == 0 then 0 else 1) else (if dj == 0 then 2 else 4)]
         == RowMajor(ci + di, cj + dj, w)
  {
    assert (ci + 1) * w == ci * w + w;
  }

  /** On a rectangular grid the vertex list holds `h * w * 3` coordinates, and coordinate `c`
      of vertex `i * w + j` is coordinate `c` of `samples[i][j]`. */
  lemma VertexLayout(samples: seq<seq<Vec3>>, w: nat, i: nat, j: nat, c: nat)
    requires Uniform(samples, w) && i < |samples| && j < w && c < 3
    ensures |Flatten(Flatten(samples))| == |samples| * w * 3
    ensures RowMajor(RowMajor(i, j, w), c, 3) < |Flatten(Flatten(samples))|
    ensures Flatten(Flatten(samples))[RowMajor(RowMajor(i, j, w), c, 3)] == samples[i][j][c]
  {
    var points: seq<seq<real>> := Flatten(samples);
    FlattenUniformLength(samples, w);
    FlattenUniformElement(samples, w, i, j);
    assert Uniform(points, 3) by {
      FlattenKeeps(samples, (p: Vec3) => |p| == 3);
    }
    FlattenUniformLength(points, 3);
    FlattenUniformElement(points, 3, RowMajor(i, j, w), c);
  }

  // ---------------------------------------------------------------------------
  // Pyramid tips

  /** The number of vertices `pyramid_vertices` produces for one tip: the apex and four base corners. */
  const PyramidVertexCount: nat := 5

  /** The six triangles of one pyramid over its five vertices, as `draw_tips` lists them. */
  const TipPattern: seq<int> := [2, 1, 4, 2, 3, 4, 2, 3, 0, 2, 1, 0, 1, 4, 0, 4, 3, 0]

  /** The pattern shifted to the vertices of tip `i`: `indices.map(x => x + i * 5)`. */
  function ShiftedPattern(i: nat): (block: seq<int>)
    ensures |block| == |TipPattern|
  {
    seq(|TipPattern|, t requires 0 <= t < |TipPattern| => TipPattern[t] + i * PyramidVertexCount)
  }

  /** The shifted patterns of the first `n` tips. */
  function TipBlocks(n: nat): (blocks: seq<seq<int>>)
    ensures |blocks| == n && Uniform(blocks, |TipPattern|)
  {
    seq(n, i requires 0 <= i < n => ShiftedPattern(i))
  }

  /** The pattern names each of the five vertices of a pyramid, and nothing else. */
  lemma TipPatternUsesEveryVertex()
    ensures forall t :: 0 <= t < |TipPattern| ==> 0 <= TipPattern[t] < PyramidVertexCount
    ensures forall x :: 0 <= x < PyramidVertexCount ==> x in TipPattern
  {
    assert TipPattern[8] == 0 && TipPattern[1] == 1 && TipPattern[0] == 2 && TipPattern[4] == 3 && TipPattern[2] == 4;
  }

  /** Each of the six triangles has three different corners. */
  lemma TipTrianglesAreProper()
    ensures forall k :: 0 <= k < 6 ==>
      TipPattern[3 * k] != TipPattern[3 * k + 1] && TipPattern[3 * k + 1] != TipPattern[3 * k + 2]
      && TipPattern[3 * k] != TipPattern[3 * k + 2]
  {
  }

  /** The index loop of `draw_tips` over `n` vectors: the pattern shifted by `5 * i` for each
      vector `i` in turn, so `18 * n` indices, those of vector `i` within its own five
      vertices `[5i, 5i + 4]` and all of them below the `5 * n` vertices uploaded. */
  method TipIndices(n: nat) returns (pyramidIndices: seq<int>)
    ensures |pyramidIndices| == 18 * n
    ensures forall i, t :: 0 <= i < n && 0 <= t < 18 ==>
      RowMajor(i, t, 18) < |pyramidIndices| && pyramidIndices[RowMajor(i, t, 18)] == TipPattern[t] + 5 * i
    ensures forall i, t :: 0 <= i < n && 0 <= t < 18 ==>
      5 * i <= pyramidIndices[RowMajor(i, t, 18)] < 5 * i + PyramidVertexCount
    ensures forall k :: 0 <= k < |pyramidIndices| ==> 0 <= pyramidIndices[k] < PyramidVertexCount * n
  {
    pyramidIndices := [];
    var i := 0;
    while i < n
      invariant 0 <= i <= n
      invariant pyramidIndices == Flatten(TipBlocks(i))
    {
      var block := ShiftedPattern(i);
      assert TipBlocks(i + 1) == TipBlocks(i) + [block];
      FlattenSnoc(TipBlocks(i), block);
      pyramidIndices := pyramidIndices + block;
      i := i + 1;
    }
    TipIndicesLayout(n);
    TipPatternUsesEveryVertex();
  }

  /** The blocks of the first `n` tips, flattened. */
  lemma TipIndicesLayout(n: nat)
    ensures |Flatten(TipBlocks(n))| == 18 * n
    ensures forall i, t :: 0 <= i < n && 0 <= t < 18 ==>
      RowMajor(i, t, 18) < |Flatten(TipBlocks(n))|
      && Flatten(TipBlocks(n))[RowMajor(i, t, 18)] == TipPattern[t] + 5 * i
    ensures forall k :: 0 <= k < |Flatten(TipBlocks(n))| ==>
      0 <= Flatten(TipBlocks(n))[k] < PyramidVertexCount * n
  {
    var blocks := TipBlocks(n);
    FlattenUniformLength(blocks, 18);
    forall i, t | 0 <= i < n && 0 <= t < 18
      ensures RowMajor(i, t, 18) < |Flatten(blocks)| && Flatten(blocks)[RowMajor(i, t, 18)] == TipPattern[t] + 5 * i
    {
      FlattenUniformElement(blocks, 18, i, t);
    }
    TipPatternUsesEveryVertex();
    var below := (x: int) => 0 <= x < PyramidVertexCount * n;
    forall i, t | 0 <= i < |blocks| && 0 <= t < |blocks[i]|
      ensures below(blocks[i][t])
    {
      assert (i + 1) * 5 <= n * 5;
    }
    FlattenKeeps(blocks, below);
  }
}

=== FILE: finite_difference.dfy ===
/**
 `partial_derivative`: the one-sided forward difference the engine uses for
 every derivative, for scalar- and triple-valued functions of an argument list.
 */
module FiniteDifference {
  import opened VectorMath

  /** The forward-difference step `eps`: a fixed positive real whose exact value is not modelled. */
  type Step = e: real | e > 0.0 witness 1.0

  /** A user formula: a real-valued function of its argument list (`f(...p)`). */
  type Formula = seq<real> -> real

  /** The shifted point `p1` of `partial_derivative`: a fresh copy of `p` with coordinate `i` moved by `h`. */
  function Perturb(p: seq<real>, i: nat, h: real): seq<real>
    requires i < |p|
  {
    p[i := p[i] + h]
  }

  /** The shifted point differs from `p` in coordinate `i` only, which moves by exactly `h`. */
  lemma PerturbMovesOneCoordinate(p: seq<real>, i: nat, h: real)
    requires i < |p|
    ensures |Perturb(p, i, h)| == |p|
    ensures Perturb(p, i, h)[i] == p[i] + h
    ensures forall k :: 0 <= k < |p| && k != i ==> Perturb(p, i, h)[k] == p[k]
  {
  }

  /** `(f(p + eps e_i) - f(p)) / eps` for a scalar-valued `f`. */
  function Partial(f: Formula, p: seq<real>, i: nat, eps: Step): real
    requires i < |p|
  {
    (f(Perturb(p, i, eps)) - f(p)) / eps
  }

  /** The same difference quotient for a triple-valued `f`, subtracted and divided componentwise. */
  function PartialVec(f: seq<real> -> Vec3, p: seq<real>, i: nat, eps: Step): Vec3
    requires i < |p|
  {
    var d := Sub(f(Perturb(p, i, eps)), f(p));
    [d[0] / eps, d[1] / eps, d[2] / eps]
  }

  /** Component `k` of a triple-valued function, as a scalar formula. */
  function ComponentOf(f: seq<real> -> Vec3, k: nat): Formula
    requires k < 3
  {
    (x: seq<real>) => f(x)[k]
  }

  /** The vector difference quotient is the scalar one taken on each component separately. */
  lemma PartialVecIsComponentwise(f: seq<real> -> Vec3, p: seq<real>, i: nat, eps: Step)
    requires i < |p|
    ensures forall k :: 0 <= k < 3 ==> PartialVec(f, p, i, eps)[k] == Partial(ComponentOf(f, k), p, i, eps)
  {
  }

  /** `p` and `q` have one length and agree on every coordinate except, perhaps, `i`. */
  ghost predicate AgreeOffAxis(p: seq<real>, q: seq<real>, i: nat)
  {
    |p| == |q| && forall k :: 0 <= k < |p| && k != i ==> p[k] == q[k]
  }

  /** `f` does not look at coordinate `i` of its `n` arguments. */
  ghost predicate IgnoresAxis(f: Formula, i: nat, n: nat)
  {
    forall p: seq<real>, q: seq<real> :: |p| == n && AgreeOffAxis(p, q, i) ==> f(p) == f(q)
  }

  /** A formula that ignores coordinate `i` has a zero difference quotient along `i`, exactly. */
  lemma PartialAlongIgnoredAxis(f: Formula, p: seq<real>, i: nat, eps: Step)
    requires i < |p| && IgnoresAxis(f, i, |p|)
    ensures Partial(f, p, i, eps) == 0.0
  {
    assert AgreeOffAxis(Perturb(p, i, eps), p, i);
  }

  /** `a · p` for two argument lists of one length. */
  function Inner(a: seq<real>, p: seq<real>): real
    requires |a| == |p|
  {
    if |a| == 0 then 0.0 else a[0] * p[0] + Inner(a[1..], p[1..])
  }

  /** `f(p) = c + a · p` for every argument list of the length of `a`. */
  ghost predicate AffineIn(f: Formula, c: real, a: seq<real>)
  {
    forall p: seq<real> :: |p| == |a| ==> f(p) == c + Inner(a, p)
  }

  /** Moving coordinate `i` by `h` moves `a · p` by `a[i] * h`. */
  lemma {:induction false} InnerPerturb(a: seq<real>, p: seq<real>, i: nat, h: real)
    requires |a| == |p| && i < |p|
    ensures Inner(a, Perturb(p, i, h)) == Inner(a, p) + a[i] * h
  {
    var q := Perturb(p, i, h);
    if i == 0 {
      assert q[1..] == p[1..];
    } else {
      assert q[1..] == Perturb(p[1..], i - 1, h);
      InnerPerturb(a[1..], p[1..], i - 1, h);
    }
  }

  /** On an affine formula the forward difference is exact: it returns the coefficient `a[i]`
      whatever the step and the point. */
  lemma PartialOfAffine(f: Formula, c: real, a: seq<real>, p: seq<real>, i: nat, eps: Step)
    requires AffineIn(f, c, a) && |p| == |a| && i < |p|
    ensures Partial(f, p, i, eps) == a[i]
  {
    var q := Perturb(p, i, eps);
    InnerPerturb(a, p, i, eps);
    assert f(q) - f(p) == a[i] * eps;
    assert (a[i] * eps) / eps == a[i];
  }

  /** The pointwise sum of two formulas. */
  function Plus(f: Formula, g: Formula): Formula
  {
    (x: seq<real>) => f(x) + g(x)
  }

  /** The difference quotient of a sum is the sum of the difference quotients. */
  lemma PartialOfPlus(f: Formula, g: Formula, p: seq<real>, i: nat, eps: Step)
    requires i < |p|
    ensures Partial(Plus(f, g), p, i, eps) == Partial(f, p, i, eps) + Partial(g, p, i, eps)
  {
    var q := Perturb(p, i, eps);
    assert Plus(f, g)(q) - Plus(f, g)(p) == (f(q) - f(p)) + (g(q) - g(p));
  }
}

=== FILE: parametric_surface.dfy ===
/**
 The `ParametricSurface` class: a surface `R(u, v)` given by three component
 formulas, its sample grid, its boundary curve, its finite-difference normal,
 and the two integrals that Stokes' theorem equates.
 */
module ParametricSurface {
  import opened VectorMath
  import opened Seqs
  import opened Sweeps
  import opened FiniteDifference
  import opened VectorField

  datatype Surface = Surface(rx: Formula, ry: Formula, rz: Formula) {

    /** `cfunc(u, v)` on the argument list `[u, v]`: the three components in a fresh triple. */
    function CFunc(uv: seq<real>): Vec3
    {
      [rx(uv), ry(uv), rz(uv)]
    }

    /** The surface point `R(u, v)`. */
    function At(u: real, v: real): Vec3
    {
      CFunc([u, v])
    }
  }

  // ---------------------------------------------------------------------------
  // Sampling

  /** `sample` as written, given the values `us` the outer loop variable holds at each guard
      test and the values `vs` the inner one holds at each guard test: one row per `u`, one
      entry per `v`, each evaluated at the coordinates rounded to two places. The body rounds
      `u` again on every inner trip; rounding twice changes nothing, so each row sees one `u`. */
  method Sample(s: Surface, us: seq<real>, vs: seq<real>) returns (samples: seq<seq<Vec3>>)
    ensures |samples| == |us|
    ensures forall i :: 0 <= i < |us| ==> |samples[i]| == |vs|
    ensures forall i, j :: 0 <= i < |us| && 0 <= j < |vs| ==>
      samples[i][j] == s.At(RoundHundredths(us[i]), RoundHundredths(vs[j]))
  {
    samples := [];
    var i := 0;
    while i < |us|
      invariant 0 <= i <= |us|
      invariant |samples| == i
      invariant forall i' :: 0 <= i' < i ==> |samples[i']| == |vs|
      invariant forall i', j :: 0 <= i' < i && 0 <= j < |vs| ==>
        samples[i'][j] == s.At(RoundHundredths(us[i']), RoundHundredths(vs[j]))
    {
      var u := us[i];
      var row: seq<Vec3> := [];
      var j := 0;
      while j < |vs|
        invariant 0 <= j <= |vs|
        invariant |row| == j
        invariant u == us[i] || u == RoundHundredths(us[i])
        invariant forall j' :: 0 <= j' < j ==> row[j'] == s.At(RoundHundredths(us[i]), RoundHundredths(vs[j']))
      {
        var v := vs[j];
        RoundHundredthsIdempotent(us[i]);
        u := RoundHundredths(u);
        v := RoundHundredths(v);
        row := row + [s.At(u, v)];
        j := j + 1;
      }
      samples := samples + [row];
      i := i + 1;
    }
  }

  /** `sample(uv_ranges, rate)` with the loop variables advancing by exactly `rate` and the
      rounding applied only to the coordinates handed to the formulas: the grid has
      `IdealTripCount` rows of `IdealTripCount` entries, entry `(i, j)` at the rounded
      `(u_lo + i * rate, v_lo + j * rate)`. */
  method SampleOver(s: Surface, ur: Range, vr: Range, rate: real) returns (samples: seq<seq<Vec3>>)
    requires rate > 0.0
    ensures |samples| == IdealTripCount(ur.lo, ur.hi, rate)
    ensures forall i :: 0 <= i < |samples| ==> |samples[i]| == IdealTripCount(vr.lo, vr.hi, rate)
    ensures forall i, j :: 0 <= i < |samples| && 0 <= j < |samples[i]| ==>
      samples[i][j] == s.At(RoundHundredths(Nth(ur.lo, rate, i)), RoundHundredths(Nth(vr.lo, rate, j)))
  {
    var us := Sweep(ur.lo, ur.hi, rate);
    var vs := Sweep(vr.lo, vr.hi, rate);
    samples := Sample(s, us, vs);
  }

  // ---------------------------------------------------------------------------
  // Boundary curve

  /** The surface points `R(u, v)` for each `u` of `us` at the fixed `v`: an edge `v = const`. */
  function EdgeAlongU(s: Surface, us: seq<real>, v: real): seq<Vec3>
  {
    seq(|us|, k requires 0 <= k < |us| => s.At(us[k], v))
  }

  /** The surface points `R(u, v)` for each `v` of `vs` at the fixed `u`: an edge `u = const`. */
  function EdgeAlongV(s: Surface, u: real, vs: seq<real>): seq<Vec3>
  {
    seq(|vs|, k requires 0 <= k < |vs| => s.At(u, vs[k]))
  }

  /** `boundary_curve` given the sweep values `us` over `ur` and `vs` over `vr`: the edge
      `v = v_lo` forward, the edge `u = u_hi` forward, the edge `v = v_hi` backward and the
      edge `u = u_lo` backward (the two backward edges built by `unshift`), concatenated with
      no corner removed, so `2 * (|us| + |vs|)` points. When both sweeps start at the lower
      ends, the curve ends where it starts. */
  method BoundaryCurve(s: Surface, ur: Range, vr: Range, us: seq<real>, vs: seq<real>) returns (curve: seq<Vec3>)
    ensures curve == EdgeAlongU(s, us, vr.lo) + EdgeAlongV(s, ur.hi, vs)
                     + Reverse(EdgeAlongU(s, us, vr.hi)) + Reverse(EdgeAlongV(s, ur.lo, vs))
    ensures |curve| == 2 * (|us| + |vs|)
    ensures 0 < |us| && 0 < |vs| && us[0] == ur.lo && vs[0] == vr.lo ==> curve[|curve| - 1] == curve[0]
  {
    var s1: seq<Vec3>, s2: seq<Vec3>, s3: seq<Vec3>, s4: seq<Vec3> := [], [], [], [];
    var k := 0;
    while k < |us|
      invariant 0 <= k <= |us|
      invariant s1 == EdgeAlongU(s, us[..k], vr.lo)
      invariant |s3| == k && forall m :: 0 <= m < k ==> s3[m] == s.At(us[k - 1 - m], vr.hi)
    {
      s1 := s1 + [s.At(us[k], vr.lo)];
      s3 := [s.At(us[k], vr.hi)] + s3;
      k := k + 1;
    }
    assert us[..k] == us;
    assert s3 == Reverse(EdgeAlongU(s, us, vr.hi));
    k := 0;
    while k < |vs|
      invariant 0 <= k <= |vs|
      invariant s2 == EdgeAlongV(s, ur.hi, vs[..k])
      invariant |s4| == k && forall m :: 0 <= m < k ==> s4[m] == s.At(ur.lo, vs[k - 1 - m])
    {
      s2 := s2 + [s.At(ur.hi, vs[k])];
      s4 := [s.At(ur.lo, vs[k])] + s4;
      k := k + 1;
    }
    assert vs[..k] == vs;
    assert s4 == Reverse(EdgeAlongV(s, ur.lo, vs));
    curve := s1 + s2 + s3 + s4;
    if 0 < |us| && 0 < |vs| {
      assert curve[0] == s1[0];
      assert curve[|curve| - 1] == s4[|vs| - 1];
    }
  }

  /** `boundary_curve(uv_ranges, rate)` over exact sweeps: `2 * (N_u + N_v)` points, and on a
      non-empty rectangle the last point (the `u = u_lo` edge back at `v_lo`) repeats the first,
      so the polygon is closed without a wrap-around segment. */
  method BoundaryCurveOver(s: Surface, ur: Range, vr: Range, rate: real) returns (curve: seq<Vec3>)
    requires rate > 0.0
    ensures |curve| == 2 * (IdealTripCount(ur.lo, ur.hi, rate) + IdealTripCount(vr.lo, vr.hi, rate))
    ensures ur.lo <= ur.hi && vr.lo <= vr.hi ==> curve[0] == s.At(ur.lo, vr.lo) && curve[|curve| - 1] == curve[0]
  {
    var us := Sweep(ur.lo, ur.hi, rate);
    var vs := Sweep(vr.lo, vr.hi, rate);
    if ur.lo <= ur.hi {
      assert Nth(ur.lo, rate, 0) <= ur.hi;
      assert Nth(ur.lo, rate, 0) == ur.lo;
    }
    if vr.lo <= vr.hi {
      assert Nth(vr.lo, rate, 0) <= vr.hi;
      assert Nth(vr.lo, rate, 0) == vr.lo;
    }
    curve := BoundaryCurve(s, ur, vr, us, vs);
  }

  // ---------------------------------------------------------------------------
  // Circulation along the boundary

  /** One term of the circulation sum: the field at the left end `p` dotted with `q - p`. */
  function SegmentWork(f: Field, p: Vec3, q: Vec3): real
  {
    Dot(f.GetVector(p, 1.0), Sub(q, p))
  }

  /** The sum of `SegmentWork` over consecutive pairs of `c`: no segment closes the loop. */
  function OpenCirculation(f: Field, c: seq<Vec3>): real
    decreases |c|
  {
    if |c| <= 1 then 0.0
    else OpenCirculation(f, c[..|c| - 1]) + SegmentWork(f, c[|c| - 2], c[|c| - 1])
  }

  /** The closed-contour sum: the open sum plus the segment from the last point back to the first. */
  function ClosedCirculation(f: Field, c: seq<Vec3>): real
  {
    if |c| == 0 then 0.0 else OpenCirculation(f, c) + SegmentWork(f, c[|c| - 1], c[0])
  }

  /** `boundary_integral(field, bcurve)`: the loop runs to `length - 2`, so the index
      `(i + 1) % length` never wraps and the sum has no closing segment. */
  method BoundaryIntegral(f: Field, bcurve: seq<Vec3>) returns (integral: real)
    ensures integral == OpenCirculation(f, bcurve)
    ensures |bcurve| <= 1 ==> integral == 0.0
  {
    integral := 0.0;
    var i := 0;
    while i < |bcurve| - 1
      invariant 0 <= i
      invariant |bcurve| == 0 ==> i == 0 && integral == 0.0
      invariant |bcurve| > 0 ==> i < |bcurve| && integral == OpenCirculation(f, bcurve[..i + 1])
    {
      var vi := bcurve[i];
      var vn := bcurve[(i + 1) % |bcurve|];
      var tangent := Sub(vn, vi);
      var vec := f.GetVector(vi, 1.0);
      var d := Dot(vec, tangent);
      assert (i + 1) % |bcurve| == i + 1 by {
        var n := |bcurve|;
        assert (i + 1) / n == 0;
      }
      ghost var longer := bcurve[..i + 2];
      assert longer[..i + 1] == bcurve[..i + 1];
      assert OpenCirculation(f, longer) == OpenCirculation(f, bcurve[..i + 1]) + SegmentWork(f, vi, vn);
      integral := integral + d;
      i := i + 1;
    }
    if |bcurve| > 0 {
      assert bcurve[..i + 1] == bcurve;
    }
  }

  /** On a curve whose last point repeats its first, the closing segment has zero length, so
      the open sum the source computes equals the closed-contour sum. */
  lemma ClosingSegmentVanishes(f: Field, c: seq<Vec3>)
    requires 0 < |c| && c[|c| - 1] == c[0]
    ensures ClosedCirculation(f, c) == OpenCirculation(f, c)
  {
    assert Sub(c[0], c[|c| - 1]) == Origin;
  }

  /** The field takes the value `w` at every point. */
  ghost predicate ConstantField(f: Field, w: Vec3)
  {
    forall p: seq<real> :: |p| == 3 ==> f.fx(p) == w[0] && f.fy(p) == w[1] && f.fz(p) == w[2]
  }

  /** For a constant field the circulation sum telescopes to `w · (last - first)`. */
  lemma {:induction false} ConstantFieldTelescopes(f: Field, w: Vec3, c: seq<Vec3>)
    requires ConstantField(f, w) && 0 < |c|
    ensures OpenCirculation(f, c) == Dot(w, Sub(c[|c| - 1], c[0]))
  {
    if |c| == 1 {
      assert Sub(c[0], c[0]) == Origin;
    } else {
      var init := c[..|c| - 1];
      ConstantFieldTelescopes(f, w, init);
      assert f.GetVector(c[|c| - 2], 1.0) == w;
      DotTelescopes(w, c[0], c[|c| - 2], c[|c| - 1]);
    }
  }

  // ---------------------------------------------------------------------------
  // Normal

  /** `normal_at(u, v)`: the cross product of the forward differences along `u` and `v`,
      not normalised. */
  function NormalAt(s: Surface, u: real, v: real, eps: Step): Vec3
  {
    Cross(PartialVec(s.CFunc, [u, v], 0, eps), PartialVec(s.CFunc, [u, v], 1, eps))
  }

  /** The normal is perpendicular to both difference tangents it is built from. */
  lemma NormalIsOrthogonalToTangents(s: Surface, u: real, v: real, eps: Step)
    ensures Dot(NormalAt(s, u, v, eps), PartialVec(s.CFunc, [u, v], 0, eps)) == 0.0
    ensures Dot(NormalAt(s, u, v, eps), PartialVec(s.CFunc, [u, v], 1, eps)) == 0.0
  {
    CrossIsOrthogonal(PartialVec(s.CFunc, [u, v], 0, eps), PartialVec(s.CFunc, [u, v], 1, eps));
  }

  /** `R(u, v) = o + u a + v b`: component `k` is affine in `(u, v)` with constant `o[k]`
      and coefficients `(a[k], b[k])`. */
  ghost predicate AffineSurface(s: Surface, o: Vec3, a: Vec3, b: Vec3)
  {
    forall k :: 0 <= k < 3 ==> AffineIn(ComponentOf(s.CFunc, k), o[k], [a[k], b[k]])
  }

  /** On an affine surface the forward differences are exact: along `u` they return `a`,
      along `v` they return `b`. */
  lemma TangentsOfAffineSurface(s: Surface, o: Vec3, a: Vec3, b: Vec3, u: real, v: real, eps: Step)
    requires AffineSurface(s, o, a, b)
    ensures PartialVec(s.CFunc, [u, v], 0, eps) == a
    ensures PartialVec(s.CFunc, [u, v], 1, eps) == b
  {
    PartialVecIsComponentwise(s.CFunc, [u, v], 0, eps);
    PartialVecIsComponentwise(s.CFunc, [u, v], 1, eps);
    forall k | 0 <= k < 3
      ensures PartialVec(s.CFunc, [u, v], 0, eps)[k] == a[k]
      ensures PartialVec(s.CFunc, [u, v], 1, eps)[k] == b[k]
    {
      PartialOfAffine(ComponentOf(s.CFunc, k), o[k], [a[k], b[k]], [u, v], 0, eps);
      PartialOfAffine(ComponentOf(s.CFunc, k), o[k], [a[k], b[k]], [u, v], 1, eps);
    }
  }

  /** On an affine surface the normal is exactly `a × b`, at every point and for every step. */
  lemma NormalOfAffineSurface(s: Surface, o: Vec3, a: Vec3, b: Vec3, u: real, v: real, eps: Step)
    requires AffineSurface(s, o, a, b)
    ensures NormalAt(s, u, v, eps) == Cross(a, b)
  {
    TangentsOfAffineSurface(s, o, a, b, u, v, eps);
  }

  /** The flat square `R(u, v) = (u, v, 0)`. */
  function FlatSquare(): Surface
  {
    Surface((uv: seq<real>) => Coord(uv, 0), (uv: seq<real>) => Coord(uv, 1), (uv: seq<real>) => 0.0)
  }

  /** Each component of the flat square is affine in `(u, v)`: `u`, `v` and `0`. */
  lemma FlatSquareIsAffine()
    ensures AffineSurface(FlatSquare(), Origin, [1.0, 0.0, 0.0], [0.0, 1.0, 0.0])
  {
    forall p: seq<real> | |p| == 2
      ensures ComponentOf(FlatSquare().CFunc, 0)(p) == 0.0 + Inner([1.0, 0.0], p)
      ensures ComponentOf(FlatSquare().CFunc, 1)(p) == 0.0 + Inner([0.0, 1.0], p)
      ensures ComponentOf(FlatSquare().CFunc, 2)(p) == 0.0 + Inner([0.0, 0.0], p)
    {
      InnerOfTwo([1.0, 0.0], p);
      InnerOfTwo([0.0, 1.0], p);
      InnerOfTwo([0.0, 0.0], p);
      assert FlatSquare().CFunc(p) == [p[0], p[1], 0.0];
    }
  }

  /** `a · p` written out for argument lists of length two. */
  lemma InnerOfTwo(a: seq<real>, p: seq<real>)
    requires |a| == 2 && |p| == 2
    ensures Inner(a, p) == a[0] * p[0] + a[1] * p[1]
  {
    assert Inner(a[1..], p[1..]) == a[1] * p[1] + Inner(a[1..][1..], p[1..][1..]);
  }

  /** The flat square is affine with `a = x` and `b = y`, so its normal is exactly `(0, 0, 1)`. */
  lemma FlatSquareNormal(u: real, v: real, eps: Step)
    ensures NormalAt(FlatSquare(), u, v, eps) == [0.0, 0.0, 1.0]
  {
    FlatSquareIsAffine();
    NormalOfAffineSurface(FlatSquare(), Origin, [1.0, 0.0, 0.0], [0.0, 1.0, 0.0], u, v, eps);
  }

  // ---------------------------------------------------------------------------
  // Flux of the curl through the surface

  /** The flux term of the cell with corner `(u, v)`: the curl taken at the image of the cell
      centre `(u + rate/2, v + rate/2)`, the normal taken at the corner, times `rate^2`. */
  function CellFlux(f: Field, s: Surface, u: real, v: real, rate: real, eps: Step): real
  {
    Dot(f.Curl(s.At(u + rate / 2.0, v + rate / 2.0), eps), NormalAt(s, u, v, eps)) * rate * rate
  }

  /** The cell terms along one row `u`, added in the order of `vs`. */
  function RowFlux(f: Field, s: Surface, u: real, vs: seq<real>, rate: real, eps: Step): real
    decreases |vs|
  {
    if |vs| == 0 then 0.0
    else RowFlux(f, s, u, vs[..|vs| - 1], rate, eps) + CellFlux(f, s, u, vs[|vs| - 1], rate, eps)
  }

  /** The cell terms of every row, rows added in the order of `us`. */
  function Flux(f: Field, s: Surface, us: seq<real>, vs: seq<real>, rate: real, eps: Step): real
    decreases |us|
  {
    if |us| == 0 then 0.0
    else Flux(f, s, us[..|us| - 1], vs, rate, eps) + RowFlux(f, s, us[|us| - 1], vs, rate, eps)
  }

  /** One entry of the `norms` list: the surface point at the cell centre and the normal
      drawn from it (the source draws it normalised to half a unit; see the README). */
  datatype NormalMarker = NormalMarker(at: Vec3, normal: Vec3)

  /** The marker of the cell with corner `(u, v)`. */
  function Marker(s: Surface, u: real, v: real, rate: real, eps: Step): NormalMarker
  {
    NormalMarker(s.At(u + rate / 2.0, v + rate / 2.0), NormalAt(s, u, v, eps))
  }

  /** The markers of one row, in the order of `vs`. */
  function MarkerRow(s: Surface, u: real, vs: seq<real>, rate: real, eps: Step): (row: seq<NormalMarker>)
    ensures |row| == |vs|
  {
    seq(|vs|, j requires 0 <= j < |vs| => Marker(s, u, vs[j], rate, eps))
  }

  /** The marker rows, one per `u`. */
  function MarkerRows(s: Surface, us: seq<real>, vs: seq<real>, rate: real, eps: Step): (rows: seq<seq<NormalMarker>>)
    ensures |rows| == |us| && Uniform(rows, |vs|)
  {
    seq(|us|, i requires 0 <= i < |us| => MarkerRow(s, us[i], vs, rate, eps))
  }

  /** Extending a row's `v` prefix by one value adds that cell's term to the row sum and its
      marker to the row's markers. */
  lemma RowStep(f: Field, s: Surface, u: real, vs: seq<real>, j: nat, rate: real, eps: Step)
    requires j < |vs|
    ensures RowFlux(f, s, u, vs[..j + 1], rate, eps) == RowFlux(f, s, u, vs[..j], rate, eps) + CellFlux(f, s, u, vs[j], rate, eps)
    ensures MarkerRow(s, u, vs[..j + 1], rate, eps) == MarkerRow(s, u, vs[..j], rate, eps) + [Marker(s, u, vs[j], rate, eps)]
  {
    assert vs[..j + 1][..j] == vs[..j];
  }

  /** Extending the `u` prefix by one value adds that row's sum to the total and its markers
      to the end of the flattened marker list. */
  lemma GridStep(f: Field, s: Surface, us: seq<real>, vs: seq<real>, i: nat, rate: real, eps: Step)
    requires i < |us|
    ensures Flux(f, s, us[..i + 1], vs, rate, eps) == Flux(f, s, us[..i], vs, rate, eps) + RowFlux(f, s, us[i], vs, rate, eps)
    ensures Flatten(MarkerRows(s, us[..i + 1], vs, rate, eps))
         == Flatten(MarkerRows(s, us[..i], vs, rate, eps)) + MarkerRow(s, us[i], vs, rate, eps)
  {
    assert us[..i + 1][..i] == us[..i];
    assert MarkerRows(s, us[..i + 1], vs, rate, eps) == MarkerRows(s, us[..i], vs, rate, eps) + [MarkerRow(s, us[i], vs, rate, eps)];
    FlattenSnoc(MarkerRows(s, us[..i], vs, rate, eps), MarkerRow(s, us[i], vs, rate, eps));
  }

  /** The flattened marker rows hold `|us| * |vs|` markers, the one of cell `(i, j)` at
      position `i * |vs| + j`. */
  lemma MarkerLayout(s: Surface, us: seq<real>, vs: seq<real>, rate: real, eps: Step)
    ensures |Flatten(MarkerRows(s, us, vs, rate, eps))| == |us| * |vs|
    ensures forall i, j :: 0 <= i < |us| && 0 <= j < |vs| ==>
      RowMajor(i, j, |vs|) < |Flatten(MarkerRows(s, us, vs, rate, eps))|
      && Flatten(MarkerRows(s, us, vs, rate, eps))[RowMajor(i, j, |vs|)] == Marker(s, us[i], vs[j], rate, eps)
  {
    var rows := MarkerRows(s, us, vs, rate, eps);
    FlattenUniformLength(rows, |vs|);
    forall i, j | 0 <= i < |us| && 0 <= j < |vs|
      ensures RowMajor(i, j, |vs|) < |Flatten(rows)| && Flatten(rows)[RowMajor(i, j, |vs|)] == Marker(s, us[i], vs[j], rate, eps)
    {
      FlattenUniformElement(rows, |vs|, i, j);
      assert rows[i][j] == Marker(s, us[i], vs[j], rate, eps);
    }
  }

  /** The curl is read at the image of the cell centre only: a field whose difference curl is
      the same vector `c` everywhere contributes `c` dotted with the corner normal, times `rate^2`. */
  lemma CellFluxOfUniformCurl(f: Field, c: Vec3, s: Surface, u: real, v: real, rate: real, eps: Step)
    requires forall p: Vec3 :: f.Curl(p, eps) == c
    ensures CellFlux(f, s, u, v, rate, eps) == Dot(c, NormalAt(s, u, v, eps)) * rate * rate
  {
  }

  /** On an affine surface `o + u a + v b` a uniform curl `c` gives every cell the exact flux
      through its parallelogram of sides `rate a` and `rate b`: `c . (a x b) rate^2`. */
  lemma CellFluxOnAffineSurface(f: Field, c: Vec3, s: Surface, o: Vec3, a: Vec3, b: Vec3,
                                u: real, v: real, rate: real, eps: Step)
    requires forall p: Vec3 :: f.Curl(p, eps) == c
    requires AffineSurface(s, o, a, b)
    ensures CellFlux(f, s, u, v, rate, eps) == Dot(c, Cross(a, b)) * rate * rate
  {
    CellFluxOfUniformCurl(f, c, s, u, v, rate, eps);
    NormalOfAffineSurface(s, o, a, b, u, v, eps);
  }

  /** The body of `curl_integral`'s inner loop for the cell with corner `(u, v)`: the centre's
      image, the normal at the corner, and the cell's weighted flux term. */
  method CurlCell(f: Field, s: Surface, u: real, v: real, rate: real, eps: Step)
    returns (cartesian: Vec3, normal: Vec3, term: real)
    ensures NormalMarker(cartesian, normal) == Marker(s, u, v, rate, eps)
    ensures term == CellFlux(f, s, u, v, rate, eps)
  {
    cartesian := s.At(u + rate / 2.0, v + rate / 2.0);
    var curl := f.Curl(cartesian, eps);
    normal := NormalAt(s, u, v, eps);
    var flux := Dot(curl, normal);
    term := flux * rate * rate;
  }

  /** `curl_integral`'s inner loop over `vs` for the row `u`, continuing the running sum
      `integral0` and the marker list `norms0`. */
  method CurlRow(f: Field, s: Surface, u: real, vs: seq<real>, rate: real, eps: Step,
                 integral0: real, norms0: seq<NormalMarker>)
    returns (integral: real, norms: seq<NormalMarker>)
    ensures integral == integral0 + RowFlux(f, s, u, vs, rate, eps)
    ensures norms == norms0 + MarkerRow(s, u, vs, rate, eps)
  {
    integral, norms := integral0, norms0;
    var j := 0;
    while j < |vs|
      invariant 0 <= j <= |vs|
      invariant integral == integral0 + RowFlux(f, s, u, vs[..j], rate, eps)
      invariant norms == norms0 + MarkerRow(s, u, vs[..j], rate, eps)
    {
      var v := vs[j];
      var cartesian, normal, term := CurlCell(f, s, u, v, rate, eps);
      norms := norms + [NormalMarker(cartesian, normal)];
      integral := integral + term;
      RowStep(f, s, u, vs, j, rate, eps);
      j := j + 1;
    }
    assert vs[..j] == vs;
  }

  /** `curl_integral(field, uv_ranges, rate)` given the strict sweep values `us` and `vs`:
      exactly one flux term per cell, visited row by row, and exactly one marker per cell in
      the same order. The markers are collected beside the sum and never enter it. */
  method CurlIntegral(f: Field, s: Surface, us: seq<real>, vs: seq<real>, rate: real, eps: Step)
    returns (integral: real, norms: seq<NormalMarker>)
    ensures integral == Flux(f, s, us, vs, rate, eps)
    ensures |norms| == |us| * |vs|
    ensures forall i, j :: 0 <= i < |us| && 0 <= j < |vs| ==>
      RowMajor(i, j, |vs|) < |norms| && norms[RowMajor(i, j, |vs|)] == Marker(s, us[i], vs[j], rate, eps)
  {
    integral := 0.0;
    norms := [];
    var i := 0;
    while i < |us|
      invariant 0 <= i <= |us|
      invariant integral == Flux(f, s, us[..i], vs, rate, eps)
      invariant norms == Flatten(MarkerRows(s, us[..i], vs, rate, eps))
    {
      var u := us[i];
      integral, norms := CurlRow(f, s, u, vs, rate, eps, integral, norms);
      GridStep(f, s, us, vs, i, rate, eps);
      i := i + 1;
    }
    assert us[..i] == us;
    assert norms == Flatten(MarkerRows(s, us, vs, rate, eps));
    MarkerLayout(s, us, vs, rate, eps);
  }

  /** `curl_integral(field, uv_ranges, rate)` with the loop variables advancing by exactly
      `rate` under the strict guards `u < u_hi`, `v < v_hi`: one term and one marker per cell
      of the `StrictTripCount`-by-`StrictTripCount` grid of cell corners. */
  method CurlIntegralOver(f: Field, s: Surface, ur: Range, vr: Range, rate: real, eps: Step)
    returns (integral: real, norms: seq<NormalMarker>)
    requires rate > 0.0
    ensures integral == Flux(f, s, LoopValues(ur.lo, rate, StrictTripCount(ur.lo, ur.hi, rate)),
                             LoopValues(vr.lo, rate, StrictTripCount(vr.lo, vr.hi, rate)), rate, eps)
    ensures |norms| == StrictTripCount(ur.lo, ur.hi, rate) * StrictTripCount(vr.lo, vr.hi, rate)
    ensures forall i, j :: 0 <= i < StrictTripCount(ur.lo, ur.hi, rate) && 0 <= j < StrictTripCount(vr.lo, vr.hi, rate) ==>
      RowMajor(i, j, StrictTripCount(vr.lo, vr.hi, rate)) < |norms|
      && norms[RowMajor(i, j, StrictTripCount(vr.lo, vr.hi, rate))] == Marker(s, Nth(ur.lo, rate, i), Nth(vr.lo, rate, j), rate, eps)
  {
    var us := StrictSweep(ur.lo, ur.hi, rate);
    var vs := StrictSweep(vr.lo, vr.hi, rate);
    integral, norms := CurlIntegral(f, s, us, vs, rate, eps);
  }

  /** Cells that each contribute nothing give a zero flux sum. */
  lemma {:induction false} FluxOfNullCells(f: Field, s: Surface, us: seq<real>, vs: seq<real>, rate: real, eps: Step)
    requires forall i, j :: 0 <= i < |us| && 0 <= j < |vs| ==> CellFlux(f, s, us[i], vs[j], rate, eps) == 0.0
    ensures Flux(f, s, us, vs, rate, eps) == 0.0
  {
    if |us| > 0 {
      var u := us[|us| - 1];
      FluxOfNullCells(f, s, us[..|us| - 1], vs, rate, eps);
      RowFluxOfNullCells(f, s, u, vs, rate, eps);
    }
  }

  /** Along one row: cells that each contribute nothing give a zero row sum. */
  lemma {:induction false} RowFluxOfNullCells(f: Field, s: Surface, u: real, vs: seq<real>, rate: real, eps: Step)
    requires forall j :: 0 <= j < |vs| ==> CellFlux(f, s, u, vs[j], rate, eps) == 0.0
    ensures RowFlux(f, s, u, vs, rate, eps) == 0.0
  {
    if |vs| > 0 {
      RowFluxOfNullCells(f, s, u, vs[..|vs| - 1], rate, eps);
    }
  }

  /** A field whose finite-difference curl vanishes everywhere has zero flux through any
      surface, whatever the sweeps: the normals never enter the sum except through the curl. */
  lemma FluxOfCurlFreeField(f: Field, s: Surface, us: seq<real>, vs: seq<real>, rate: real, eps: Step)
    requires forall p: Vec3 :: f.Curl(p, eps) == Origin
    ensures Flux(f, s, us, vs, rate, eps) == 0.0
  {
    forall i, j | 0 <= i < |us| && 0 <= j < |vs|
      ensures CellFlux(f, s, us[i], vs[j], rate, eps) == 0.0
    {
      var p := s.At(us[i] + rate / 2.0, vs[j] + rate / 2.0);
      assert f.Curl(p, eps) == Origin;
    }
    FluxOfNullCells(f, s, us, vs, rate, eps);
  }

  /** Fields whose components each depend on their own axis only have zero flux. */
  lemma FluxOfOwnAxisField(f: Field, s: Surface, us: seq<real>, vs: seq<real>, rate: real, eps: Step)
    requires OwnAxisOnly(f)
    ensures Flux(f, s, us, vs, rate, eps) == 0.0
  {
    forall p: Vec3
      ensures f.Curl(p, eps) == Origin
    {
      CurlOfOwnAxisFieldIsZero(f, p, eps);
    }
    FluxOfCurlFreeField(f, s, us, vs, rate, eps);
  }

  /** The start-up field `(x, y + z, z)` over the flat square: its curl `(-1, 0, 0)` is
      perpendicular to the normal `(0, 0, 1)`, so every cell term is zero and so is the flux. */
  lemma StartupFieldFlatSquareFlux(us: seq<real>, vs: seq<real>, rate: real, eps: Step)
    ensures Flux(StartupField(), FlatSquare(), us, vs, rate, eps) == 0.0
  {
    forall i, j | 0 <= i < |us| && 0 <= j < |vs|
      ensures CellFlux(StartupField(), FlatSquare(), us[i], vs[j], rate, eps) == 0.0
    {
      StartupFieldCurl(FlatSquare().At(us[i] + rate / 2.0, vs[j] + rate / 2.0), eps);
      FlatSquareNormal(us[i], vs[j], eps);
    }
    FluxOfNullCells(StartupField(), FlatSquare(), us, vs, rate, eps);
  }

  /** The two sides of Stokes' theorem agree exactly for a constant field: the flux is zero
      because the curl is, and the circulation along any curve whose last point repeats its
      first (as `BoundaryCurveOver` produces) telescopes to zero. */
  lemma StokesAgreesOnConstantFields(f: Field, w: Vec3, s: Surface, us: seq<real>, vs: seq<real>,
                                     rate: real, eps: Step, curve: seq<Vec3>)
    requires ConstantField(f, w)
    requires 0 < |curve| && curve[|curve| - 1] == curve[0]
    ensures Flux(f, s, us, vs, rate, eps) == 0.0
    ensures OpenCirculation(f, curve) == 0.0
  {
    assert OwnAxisOnly(f) by {
      forall p: seq<real>, q: seq<real> | |p| == 3 && |q| == 3
        ensures f.fx(p) == f.fx(q) && f.fy(p) == f.fy(q) && f.fz(p) == f.fz(q)
      {
      }
    }
    FluxOfOwnAxisField(f, s, us, vs, rate, eps);
    ConstantFieldTelescopes(f, w, curve);
    assert Sub(curve[|curve| - 1], curve[0]) == Origin;
  }
}

=== FILE: seqs.dfy ===
/**
 Sequence helpers shared by the builders: one-level flattening (JavaScript's
 `Array.prototype.flat`) and reversal (what repeated `unshift` builds).
 */
module Seqs {

  /** The blocks concatenated in order. */
  function Flatten<T>(blocks: seq<seq<T>>): seq<T>
  {
    if |blocks| == 0 then [] else blocks[0] + Flatten(blocks[1..])
  }

  /** Every block has exactly `m` elements. */
  ghost predicate Uniform<T>(blocks: seq<seq<T>>, m: nat)
  {
    forall i :: 0 <= i < |blocks| ==> |blocks[i]| == m
  }

  /** Appending one block to the list appends its elements to the flattening. */
  lemma {:induction false} FlattenSnoc<T>(blocks: seq<seq<T>>, b: seq<T>)
    ensures Flatten(blocks + [b]) == Flatten(blocks) + b
  {
    if |blocks| == 0 {
      assert blocks + [b] == [b];
      assert Flatten([b]) == b + Flatten([b][1..]);
    } else {
      assert (blocks + [b])[1..] == blocks[1..] + [b];
      FlattenSnoc(blocks[1..], b);
    }
  }

  /** Position of element `k` of row `i` in a row-major layout with rows of width `m`. */
  function RowMajor(i: nat, k: nat, m: nat): nat
  {
    i * m + k
  }

  /** Flattening distributes over concatenation of the block lists. */
  lemma {:induction false} FlattenConcat<T>(xs: seq<seq<T>>, ys: seq<seq<T>>)
    ensures Flatten(xs + ys) == Flatten(xs) + Flatten(ys)
  {
    if |xs| > 0 {
      assert (xs + ys)[1..] == xs[1..] + ys;
      FlattenConcat(xs[1..], ys);
    } else {
      assert xs + ys == ys;
    }
  }

  /** Flattening blocks of a common width `m` yields `|blocks| * m` elements. */
  lemma {:induction false} FlattenUniformLength<T>(blocks: seq<seq<T>>, m: nat)
    requires Uniform(blocks, m)
    ensures |Flatten(blocks)| == |blocks| * m
  {
    if |blocks| > 0 {
      FlattenUniformLength(blocks[1..], m);
      assert |blocks| * m == m + |blocks[1..]| * m;
    }
  }

  /** Element `k` of block `i` sits at position `i * m + k` of the flattening. */
  lemma {:induction false} FlattenUniformElement<T>(blocks: seq<seq<T>>, m: nat, i: nat, k: nat)
    requires Uniform(blocks, m)
    requires i < |blocks| && k < m
    ensures i * m + k < |Flatten(blocks)|
    ensures Flatten(blocks)[i * m + k] == blocks[i][k]
  {
    FlattenUniformLength(blocks, m);
    var rest := blocks[1..];
    assert Flatten(blocks) == blocks[0] + Flatten(rest);
    if i > 0 {
      FlattenUniformElement(rest, m, i - 1, k);
      var x := (i - 1) * m + k;
      assert i * m + k == m + x;
    }
  }

  /** A property of every element of every block holds of every element of the flattening. */
  lemma {:induction false} FlattenKeeps<T>(blocks: seq<seq<T>>, P: T -> bool)
    requires forall i, j :: 0 <= i < |blocks| && 0 <= j < |blocks[i]| ==> P(blocks[i][j])
    ensures forall k :: 0 <= k < |Flatten(blocks)| ==> P(Flatten(blocks)[k])
  {
    if |blocks| > 0 {
      FlattenKeeps(blocks[1..], P);
      assert Flatten(blocks) == blocks[0] + Flatten(blocks[1..]);
    }
  }

  /** The sequence read back to front, as `unshift` of each element in turn builds it. */
  function Reverse<T>(s: seq<T>): (r: seq<T>)
    ensures |r| == |s|
    ensures forall k :: 0 <= k < |s| ==> r[k] == s[|s| - 1 - k]
  {
    if |s| == 0 then [] else Reverse(s[1..]) + [s[0]]
  }
}

=== FILE: sweeps.dfy ===
/**
 The parameter sweeps `for (u = a; u <= b; u += r)` that every sampler runs,
 idealised over the reals, and the decimal rounding the grid sampler applies
 to its coordinates.
 */
module Sweeps {

  /** A parameter interval `[lo, hi]`, the `[min, max]` pairs of the source. */
  datatype Range = Range(lo: real, hi: real)

  /** The value of the loop variable on trip `k` of an exact sweep from `a` with step `r`. */
  function Nth(a: real, r: real, k: nat): real
  {
    a + (k as real) * r
  }

  /** The first `n` values of an exact sweep from `a` with step `r`. */
  function LoopValues(a: real, r: real, n: nat): (us: seq<real>)
    ensures |us| == n
    ensures forall k :: 0 <= k < n ==> us[k] == Nth(a, r, k)
  {
    seq(n, k requires 0 <= k < n => Nth(a, r, k))
  }

  /** A sweep guarded by `u <= b` runs exactly `n` trips: every visited value passes
      the guard and the value after the last one fails it. */
  ghost predicate InclusiveTrips(a: real, b: real, r: real, n: nat)
  {
    && (forall k: nat :: k < n ==> Nth(a, r, k) <= b)
    && b < Nth(a, r, n)
  }

  /** The same for a sweep guarded by the strict test `u < b`. */
  ghost predicate ExclusiveTrips(a: real, b: real, r: real, n: nat)
  {
    && (forall k: nat :: k < n ==> Nth(a, r, k) < b)
    && b <= Nth(a, r, n)
  }

  /** Multiplying by a positive step keeps the order of two trip numbers. */
  lemma MulMonotone(x: real, y: real, r: real)
    requires r > 0.0
    ensures x <= y ==> x * r <= y * r
    ensures x < y ==> x * r < y * r
  {
  }

  /** Trip `k` of a sweep from `a` lies at or before `b` exactly when `k <= (b - a) / r`. */
  lemma NthVersusQuotient(a: real, b: real, r: real, k: nat)
    requires r > 0.0
    ensures Nth(a, r, k) <= b <==> (k as real) <= (b - a) / r
    ensures Nth(a, r, k) < b <==> (k as real) < (b - a) / r
  {
    var q := (b - a) / r;
    assert q * r == b - a;
    MulMonotone(k as real, q, r);
    MulMonotone(q, k as real, r);
  }

  /** The trip count of an exact inclusive sweep, `floor((b - a) / r) + 1`, or none when `b < a`. */
  function IdealTripCount(a: real, b: real, r: real): (n: nat)
    requires r > 0.0
    ensures InclusiveTrips(a, b, r, n)
  {
    if b < a then 0
    else
      var q := (b - a) / r;
      assert q >= 0.0 by { NthVersusQuotient(a, b, r, 0); }
      var f := q.Floor;
      assert f as real <= q < f as real + 1.0;
      assert InclusiveTrips(a, b, r, f + 1) by {
        forall k: nat | k < f + 1
          ensures Nth(a, r, k) <= b
        {
          NthVersusQuotient(a, b, r, k);
        }
        NthVersusQuotient(a, b, r, f + 1);
      }
      f + 1
  }

  /** Monotone sweeps have one trip count only, so `IdealTripCount` is the loop's count. */
  lemma InclusiveTripsUnique(a: real, b: real, r: real, n: nat, m: nat)
    requires r > 0.0
    requires InclusiveTrips(a, b, r, n) && InclusiveTrips(a, b, r, m)
    ensures n == m
  {
  }

  /** A range narrower than one step is sampled exactly once, at its lower end. */
  lemma NarrowRangeSampledOnce(a: real, b: real, r: real)
    requires r > 0.0 && a <= b < a + r
    ensures IdealTripCount(a, b, r) == 1
    ensures LoopValues(a, r, IdealTripCount(a, b, r)) == [a]
  {
    assert InclusiveTrips(a, b, r, 1) by {
      assert Nth(a, r, 0) == a;
      assert Nth(a, r, 1) == a + r;
    }
    InclusiveTripsUnique(a, b, r, 1, IdealTripCount(a, b, r));
  }

  /** A range of exactly `m` whole steps: the inclusive sweep visits `m + 1` values
      (both ends) and the strict sweep visits `m`, one per cell. */
  lemma WholeStepRange(a: real, r: real, m: nat)
    requires r > 0.0
    ensures InclusiveTrips(a, Nth(a, r, m), r, m + 1)
    ensures ExclusiveTrips(a, Nth(a, r, m), r, m)
    ensures IdealTripCount(a, Nth(a, r, m), r) == m + 1
  {
    var b := Nth(a, r, m);
    forall k: nat | k < m + 1
      ensures Nth(a, r, k) <= b
      ensures k < m ==> Nth(a, r, k) < b
    {
      assert (k as real) * r <= (m as real) * r;
      if k < m {
        assert (k as real) * r < (m as real) * r;
      }
    }
    assert Nth(a, r, m + 1) == b + r;
    InclusiveTripsUnique(a, b, r, m + 1, IdealTripCount(a, b, r));
  }

  /** The exact inclusive sweep from `a` to `b` in steps of `r`: one trip per value, the loop
      variable advancing by exactly `r` each time. */
  method Sweep(a: real, b: real, r: real) returns (us: seq<real>)
    requires r > 0.0
    ensures |us| == IdealTripCount(a, b, r)
    ensures us == LoopValues(a, r, |us|)
    ensures forall k :: 0 <= k < |us| ==> a <= us[k] <= b
  {
    var n := IdealTripCount(a, b, r);
    us := [];
    var u := a;
    while u <= b
      invariant |us| <= n
      invariant u == Nth(a, r, |us|)
      invariant us == LoopValues(a, r, |us|)
      decreases n - |us|
    {
      us := us + [u];
      u := u + r;
    }
    forall k | 0 <= k < |us|
      ensures a <= us[k] <= b
    {
      assert us[k] == Nth(a, r, k);
      assert (k as real) * r >= 0.0;
    }
    InclusiveTripsUnique(a, b, r, |us|, n);
  }

  /** The trip count of an exact strict sweep, `ceil((b - a) / r)`, or none when `b <= a`. */
  function StrictTripCount(a: real, b: real, r: real): (n: nat)
    requires r > 0.0
    ensures ExclusiveTrips(a, b, r, n)
  {
    if b <= a then 0
    else
      var q := (b - a) / r;
      assert q > 0.0 by { NthVersusQuotient(a, b, r, 0); }
      var f := q.Floor;
      assert f as real <= q < f as real + 1.0;
      var n: nat := if f as real == q then f else f + 1;
      assert ExclusiveTrips(a, b, r, n) by {
        forall k: nat | k < n
          ensures Nth(a, r, k) < b
        {
          NthVersusQuotient(a, b, r, k);
        }
        NthVersusQuotient(a, b, r, n);
      }
      n
  }

  /** Monotone strict sweeps have one trip count only. */
  lemma ExclusiveTripsUnique(a: real, b: real, r: real, n: nat, m: nat)
    requires r > 0.0
    requires ExclusiveTrips(a, b, r, n) && ExclusiveTrips(a, b, r, m)
    ensures n == m
  {
  }

  /** The exact strict sweep `for (u = a; u < b; u += r)`: the cell corners of a range. */
  method StrictSweep(a: real, b: real, r: real) returns (us: seq<real>)
    requires r > 0.0
    ensures |us| == StrictTripCount(a, b, r)
    ensures us == LoopValues(a, r, |us|)
    ensures forall k :: 0 <= k < |us| ==> a <= us[k] < b
  {
    var n := StrictTripCount(a, b, r);
    us := [];
    var u := a;
    while u < b
      invariant |us| <= n
      invariant u == Nth(a, r, |us|)
      invariant us == LoopValues(a, r, |us|)
      decreases n - |us|
    {
      us := us + [u];
      u := u + r;
    }
    forall k | 0 <= k < |us|
      ensures a <= us[k] < b
    {
      assert us[k] == Nth(a, r, k);
      assert (k as real) * r >= 0.0;
    }
    ExclusiveTripsUnique(a, b, r, |us|, n);
  }

  /** On a range of `m` whole steps the strict sweep has one value fewer than the inclusive
      one: a grid of `m + 1` sample values has `m` cells. */
  lemma WholeStepCells(a: real, r: real, m: nat)
    requires r > 0.0
    ensures StrictTripCount(a, Nth(a, r, m), r) == m
    ensures IdealTripCount(a, Nth(a, r, m), r) == m + 1
  {
    WholeStepRange(a, r, m);
    ExclusiveTripsUnique(a, Nth(a, r, m), r, m, StrictTripCount(a, Nth(a, r, m), r));
  }

  /** `round_to(x, 2)` over the reals: `x` rounded to two decimal places, halves rounded
      toward positive infinity as `Math.round` does. The sampler only ever rounds to two places. */
  function RoundHundredths(x: real): real
  {
    ((x * 100.0 + 0.5).Floor as real) / 100.0
  }

  /** Rounding lands within half a hundredth of the value rounded. */
  lemma RoundHundredthsIsNear(x: real)
    ensures x - 0.005 < RoundHundredths(x) <= x + 0.005
  {
  }

  /** Rounding an already rounded value changes nothing. */
  lemma RoundHundredthsIdempotent(x: real)
    ensures RoundHundredths(RoundHundredths(x)) == RoundHundredths(x)
  {
    var k := (x * 100.0 + 0.5).Floor;
    assert RoundHundredths(x) * 100.0 == k as real;
    assert (RoundHundredths(x) * 100.0 + 0.5).Floor == k;
  }

  /** A whole number of hundredths rounds to itself. */
  lemma RoundHundredthsFixes(j: int)
    ensures RoundHundredths(j as real / 100.0) == j as real / 100.0
  {
    var y := j as real / 100.0;
    assert y * 100.0 + 0.5 == j as real + 0.5;
    var f := (j as real + 0.5).Floor;
    assert f as real <= j as real + 0.5 < f as real + 1.0;
    assert f == j;
  }

  /** The value the grid sampler's inner loop variable holds at its next guard test, as
      written: the body overwrites `v` with `round_to(v, 2)` and the step then adds the rate. */
  function SnappedNext(v: real, r: real): real
  {
    RoundHundredths(v) + r
  }

  /** The loop variable of the as-written inner sweep at guard test `t`, starting from `v0`. */
  function SnappedValue(v0: real, r: real, t: nat): real
  {
    if t == 0 then v0 else SnappedNext(SnappedValue(v0, r, t - 1), r)
  }

  /** With a rate below half a hundredth, the as-written inner sweep started on a hundredth
      never moves past its second value: every guard test sees at most `v0 + r`, so the
      guard `v <= b` holds forever whenever `v0 + r <= b`. */
  lemma {:induction false} SnappedSweepStalls(j: int, r: real, t: nat)
    requires 0.0 < r < 0.005
    ensures SnappedValue(j as real / 100.0, r, t) <= j as real / 100.0 + r
    ensures t > 0 ==> SnappedValue(j as real / 100.0, r, t) == j as real / 100.0 + r
  {
    var v0 := j as real / 100.0;
    if t > 0 {
      SnappedSweepStalls(j, r, t - 1);
      var prev := SnappedValue(v0, r, t - 1);
      RoundHundredthsFixes(j);
      if t > 1 {
        assert prev == v0 + r;
        assert prev * 100.0 + 0.5 == j as real + (r * 100.0 + 0.5);
        var f := (prev * 100.0 + 0.5).Floor;
        assert f as real <= prev * 100.0 + 0.5 < f as real + 1.0;
        assert f == j;
        assert RoundHundredths(prev) == v0;
      }
    }
  }

  /** At a rate that is a whole number of hundredths, started on a hundredth, the rounding
      in the grid sampler's inner loop never changes the loop variable: every guard test
      sees exactly the value of the exact sweep. At the rate `0.1` that `sample` is always
      called with, the as-written loop therefore visits the same values as the corrected one. */
  lemma {:induction false} SnappedSweepIsExactOnHundredths(j: int, m: int, t: nat)
    ensures SnappedValue(j as real / 100.0, m as real / 100.0, t) == Nth(j as real / 100.0, m as real / 100.0, t)
  {
    var a, r := j as real / 100.0, m as real / 100.0;
    if t > 0 {
      SnappedSweepIsExactOnHundredths(j, m, t - 1);
      var h := j + (t - 1) * m;
      assert Nth(a, r, t - 1) == h as real / 100.0;
      RoundHundredthsFixes(h);
      assert Nth(a, r, t) == Nth(a, r, t - 1) + r;
    }
  }

  /** A rate of at least half a hundredth that is not a whole number of hundredths does not
      stall but drifts: from `0` at rate `0.007` the second guard test sees `0.017`, where the
      exact sweep is at `0.014`. */
  lemma SnappedSweepDrifts()
    ensures SnappedValue(0.0, 0.007, 2) == 0.017
    ensures Nth(0.0, 0.007, 2) == 0.014
  {
    RoundHundredthsFixes(0);
    assert SnappedValue(0.0, 0.007, 1) == 0.007;
    var f := (0.007 * 100.0 + 0.5).Floor;
    assert f as real <= 1.2 < f as real + 1.0;
    assert f == 1;
    assert RoundHundredths(0.007) == 0.01;
  }

  /** The concrete case: starting at `0` with rate `0.004`, the inner loop of the grid sampler
      keeps testing `0.004 <= b` for ever, so with any upper bound `b >= 0.004` it never ends. */
  lemma SnappedSweepStallsAtZero(t: nat)
    ensures SnappedValue(0.0, 0.004, t) <= 0.004
    ensures t > 0 ==> SnappedValue(0.0, 0.004, t) == 0.004
  {
    SnappedSweepStalls(0, 0.004, t);
  }
}

=== FILE: vector_field.dfy ===
/**
 The `Field` class: three component formulas of `(x, y, z)`, evaluated as a
 vector, differentiated into a curl, and sampled over a cubic lattice.
 */
module VectorField {
  import opened VectorMath
  import opened Seqs
  import opened Sweeps
  import opened FiniteDifference

  datatype Field = Field(fx: Formula, fy: Formula, fz: Formula) {

    /** Component `k` of the field: 0 is `Fx`, 1 is `Fy`, 2 is `Fz`. */
    function Component(k: nat): Formula
      requires k < 3
    {
      if k == 0 then fx else if k == 1 then fy else fz
    }

    /** `cfunc(x, y, z)`: the three components evaluated at one point, in a fresh triple. */
    function CFunc(p: Vec3): Vec3
    {
      [fx(p), fy(p), fz(p)]
    }

    /** `get_vector(x, y, z, scaler)`: the field value scaled in place in the fresh triple. */
    function GetVector(p: Vec3, scaler: real): (v: Vec3)
      ensures forall k :: 0 <= k < 3 ==> v[k] == Component(k)(p) * scaler
    {
      Scale(CFunc(p), scaler)
    }

    /** `get_vector` points along the field: it is parallel to `F(p)` (zero cross product),
        its projection on `F(p)` is `scaler * |F(p)|^2`, and it is linear in the scaler. */
    lemma GetVectorFollowsField(p: Vec3, scaler: real, other: real)
      ensures Cross(GetVector(p, scaler), CFunc(p)) == [0.0, 0.0, 0.0]
      ensures Dot(GetVector(p, scaler), CFunc(p)) == scaler * Dot(CFunc(p), CFunc(p))
      ensures GetVector(p, scaler + other) == Add(GetVector(p, scaler), GetVector(p, other))
      ensures GetVector(p, 1.0) == CFunc(p)
    {
      var w := CFunc(p);
      var g := GetVector(p, scaler);
      assert g[0] == w[0] * scaler && g[1] == w[1] * scaler && g[2] == w[2] * scaler;
      calc {
        Dot(g, w);
        w[0] * scaler * w[0] + w[1] * scaler * w[1] + w[2] * scaler * w[2];
        scaler * (w[0] * w[0] + w[1] * w[1] + w[2] * w[2]);
      }
      var x := Cross(g, w);
      assert x[0] == 0.0 && x[1] == 0.0 && x[2] == 0.0;
      assert x == [0.0, 0.0, 0.0];
    }

    /** `get_curl(x, y, z)`: six forward differences, all taken at `p`, assembled as
        `(dFz/dy - dFy/dz, dFx/dz - dFz/dx, dFy/dx - dFx/dy)`. */
    function Curl(p: Vec3, eps: Step): Vec3
    {
      [Partial(fz, p, 1, eps) - Partial(fy, p, 2, eps),
       Partial(fx, p, 2, eps) - Partial(fz, p, 0, eps),
       Partial(fy, p, 0, eps) - Partial(fx, p, 1, eps)]
    }
  }

  /** The forward-difference Jacobian entry `dF_k / dx_j` at `p` (zero off the 3 x 3 index range). */
  function Jacobian(f: Field, p: Vec3, eps: Step, k: nat, j: nat): real
  {
    if k < 3 && j < 3 then Partial(f.Component(k), p, j, eps) else 0.0
  }

  /** The permutation symbol on indices `0..2`: `+1` on even permutations of `(0, 1, 2)`,
      `-1` on odd ones, `0` when an index repeats. */
  function LeviCivita(i: nat, j: nat, k: nat): real
  {
    ((i - j) * (j - k) * (k - i)) as real / 2.0
  }

  /** `g(0) + g(1) + g(2)`. */
  function Sum3(g: nat -> real): real
  {
    g(0) + g(1) + g(2)
  }

  /** The textbook curl, component `i`: the sum over `j` and `k` of `eps_ijk * dF_k / dx_j`. */
  function CurlByPermutations(f: Field, p: Vec3, eps: Step, i: nat): real
  {
    Sum3((j: nat) => Sum3((k: nat) => LeviCivita(i, j, k) * Jacobian(f, p, eps, k, j)))
  }

  /** The six-partial assembly of `get_curl` is the permutation-symbol contraction of the
      forward-difference Jacobian: the same antisymmetric pattern, no diagonal entry used. */
  lemma CurlIsPermutationContraction(f: Field, p: Vec3, eps: Step)
    ensures forall i :: 0 <= i < 3 ==> f.Curl(p, eps)[i] == CurlByPermutations(f, p, eps, i)
  {
    forall i | 0 <= i < 3
      ensures f.Curl(p, eps)[i] == CurlByPermutations(f, p, eps, i)
    {
      assert LeviCivita(i, 0, 0) == 0.0 && LeviCivita(i, 1, 1) == 0.0 && LeviCivita(i, 2, 2) == 0.0;
      assert LeviCivita(0, 1, 2) == 1.0 && LeviCivita(0, 2, 1) == -1.0;
      assert LeviCivita(1, 2, 0) == 1.0 && LeviCivita(1, 0, 2) == -1.0;
      assert LeviCivita(2, 0, 1) == 1.0 && LeviCivita(2, 1, 0) == -1.0;
      assert LeviCivita(0, 0, 1) == 0.0 && LeviCivita(0, 0, 2) == 0.0 && LeviCivita(0, 1, 0) == 0.0;
      assert LeviCivita(0, 2, 0) == 0.0 && LeviCivita(0, 1, 1) == 0.0 && LeviCivita(0, 2, 2) == 0.0;
      assert LeviCivita(1, 0, 0) == 0.0 && LeviCivita(1, 0, 1) == 0.0 && LeviCivita(1, 1, 0) == 0.0;
      assert LeviCivita(1, 1, 2) == 0.0 && LeviCivita(1, 2, 1) == 0.0 && LeviCivita(1, 2, 2) == 0.0;
      assert LeviCivita(2, 0, 0) == 0.0 && LeviCivita(2, 0, 2) == 0.0 && LeviCivita(2, 1, 1) == 0.0;
      assert LeviCivita(2, 1, 2) == 0.0 && LeviCivita(2, 2, 0) == 0.0 && LeviCivita(2, 2, 1) == 0.0;
    }
  }

  /** Each component depends on its own coordinate only: `Fx(x)`, `Fy(y)`, `Fz(z)`. */
  ghost predicate OwnAxisOnly(f: Field)
  {
    && IgnoresAxis(f.fx, 1, 3) && IgnoresAxis(f.fx, 2, 3)
    && IgnoresAxis(f.fy, 0, 3) && IgnoresAxis(f.fy, 2, 3)
    && IgnoresAxis(f.fz, 0, 3) && IgnoresAxis(f.fz, 1, 3)
  }

  /** A field whose components each depend on their own axis only has curl exactly zero. */
  lemma CurlOfOwnAxisFieldIsZero(f: Field, p: Vec3, eps: Step)
    requires OwnAxisOnly(f)
    ensures f.Curl(p, eps) == Origin
  {
    PartialAlongIgnoredAxis(f.fz, p, 1, eps);
    PartialAlongIgnoredAxis(f.fy, p, 2, eps);
    PartialAlongIgnoredAxis(f.fx, p, 2, eps);
    PartialAlongIgnoredAxis(f.fz, p, 0, eps);
    PartialAlongIgnoredAxis(f.fy, p, 0, eps);
    PartialAlongIgnoredAxis(f.fx, p, 1, eps);
  }

  /** `F(p) = c + M p`, row `k` of `m` holding the coefficients of component `k`. */
  ghost predicate AffineField(f: Field, c: Vec3, m: seq<Vec3>)
  {
    && |m| == 3
    && AffineIn(f.fx, c[0], m[0])
    && AffineIn(f.fy, c[1], m[1])
    && AffineIn(f.fz, c[2], m[2])
  }

  /** On an affine field the finite-difference curl is exact: the antisymmetric part of the
      coefficient matrix, whatever the step and the point. */
  lemma CurlOfAffineField(f: Field, c: Vec3, m: seq<Vec3>, p: Vec3, eps: Step)
    requires AffineField(f, c, m)
    ensures f.Curl(p, eps) == [m[2][1] - m[1][2], m[0][2] - m[2][0], m[1][0] - m[0][1]]
  {
    PartialOfAffine(f.fz, c[2], m[2], p, 1, eps);
    PartialOfAffine(f.fy, c[1], m[1], p, 2, eps);
    PartialOfAffine(f.fx, c[0], m[0], p, 2, eps);
    PartialOfAffine(f.fz, c[2], m[2], p, 0, eps);
    PartialOfAffine(f.fy, c[1], m[1], p, 0, eps);
    PartialOfAffine(f.fx, c[0], m[0], p, 1, eps);
  }

  /** The componentwise sum of two fields. */
  function FieldPlus(f: Field, g: Field): Field
  {
    Field(Plus(f.fx, g.fx), Plus(f.fy, g.fy), Plus(f.fz, g.fz))
  }

  /** The finite-difference curl is additive in the field. */
  lemma CurlIsAdditive(f: Field, g: Field, p: Vec3, eps: Step)
    ensures FieldPlus(f, g).Curl(p, eps) == Add(f.Curl(p, eps), g.Curl(p, eps))
  {
    PartialOfPlus(f.fz, g.fz, p, 1, eps);
    PartialOfPlus(f.fy, g.fy, p, 2, eps);
    PartialOfPlus(f.fx, g.fx, p, 2, eps);
    PartialOfPlus(f.fz, g.fz, p, 0, eps);
    PartialOfPlus(f.fy, g.fy, p, 0, eps);
    PartialOfPlus(f.fx, g.fx, p, 1, eps);
  }

  /** Adding terms that each depend on their own axis only leaves the curl unchanged. */
  lemma CurlIgnoresOwnAxisTerms(f: Field, g: Field, p: Vec3, eps: Step)
    requires OwnAxisOnly(g)
    ensures FieldPlus(f, g).Curl(p, eps) == f.Curl(p, eps)
  {
    CurlIsAdditive(f, g, p, eps);
    CurlOfOwnAxisFieldIsZero(g, p, eps);
  }

  /** Coordinate `i` of an argument list, `0` past its end. */
  function Coord(p: seq<real>, i: nat): real
  {
    if i < |p| then p[i] else 0.0
  }

  /** The field `(x, y + z, z)` the application starts with. */
  function StartupField(): Field
  {
    Field((p: seq<real>) => Coord(p, 0),
          (p: seq<real>) => Coord(p, 1) + Coord(p, 2),
          (p: seq<real>) => Coord(p, 2))
  }

  /** The start-up field is affine with coefficient rows `(1,0,0)`, `(0,1,1)`, `(0,0,1)`, so its
      finite-difference curl is exactly `(-1, 0, 0)` at every point: the `dFy/dz` term survives. */
  lemma StartupFieldCurl(p: Vec3, eps: Step)
    ensures StartupField().Curl(p, eps) == [-1.0, 0.0, 0.0]
  {
    var f := StartupField();
    var m: seq<Vec3> := [[1.0, 0.0, 0.0], [0.0, 1.0, 1.0], [0.0, 0.0, 1.0]];
    forall q: seq<real> | |q| == 3
      ensures f.fx(q) == 0.0 + Inner(m[0], q)
      ensures f.fy(q) == 0.0 + Inner(m[1], q)
      ensures f.fz(q) == 0.0 + Inner(m[2], q)
    {
      InnerOfThree(m[0], q);
      InnerOfThree(m[1], q);
      InnerOfThree(m[2], q);
    }
    CurlOfAffineField(f, Origin, m, p, eps);
  }

  /** `a · q` written out for argument lists of length three. */
  lemma InnerOfThree(a: seq<real>, q: seq<real>)
    requires |a| == 3 && |q| == 3
    ensures Inner(a, q) == a[0] * q[0] + a[1] * q[1] + a[2] * q[2]
  {
    assert Inner(a[2..], q[2..]) == a[2] * q[2] + Inner(a[3..], q[3..]);
    assert Inner(a[1..], q[1..]) == a[1] * q[1] + Inner(a[1..][1..], q[1..][1..]);
    assert a[1..][1..] == a[2..] && q[1..][1..] == q[2..];
  }

  /** The innermost (z) loop of `sample_cubic_space` at fixed `x = xs[a]`, `y = xs[b]`. */
  function CubicLine(xs: seq<real>, a: nat, b: nat): seq<Vec3>
    requires a < |xs| && b < |xs|
  {
    seq(|xs|, c requires 0 <= c < |xs| => [xs[a], xs[b], xs[c]])
  }

  /** The middle (y) loop of `sample_cubic_space` at fixed `x = xs[a]`. */
  function CubicPlane(xs: seq<real>, a: nat): seq<Vec3>
    requires a < |xs|
  {
    Flatten(CubicLines(xs, a))
  }

  /** The z-lines of the plane at `x = xs[a]`, one per `y` value. */
  function CubicLines(xs: seq<real>, a: nat): (lines: seq<seq<Vec3>>)
    requires a < |xs|
    ensures |lines| == |xs| && Uniform(lines, |xs|)
    ensures forall b :: 0 <= b < |xs| ==> lines[b] == CubicLine(xs, a, b)
  {
    seq(|xs|, b requires 0 <= b < |xs| => CubicLine(xs, a, b))
  }

  /** The planes of the cube, one per `x` value. */
  function CubicPlanes(xs: seq<real>): (planes: seq<seq<Vec3>>)
    ensures |planes| == |xs|
    ensures forall a :: 0 <= a < |xs| ==> planes[a] == CubicPlane(xs, a)
  {
    seq(|xs|, a requires 0 <= a < |xs| => CubicPlane(xs, a))
  }

  /** `sample_cubic_space`: the three nested sweeps, all over the values `xs`, pushing `[x, y, z]`. */
  function CubicSpace(xs: seq<real>): seq<Vec3>
  {
    Flatten(CubicPlanes(xs))
  }

  /** Position of lattice point `(a, b, c)` when `x` is outermost and `z` innermost. */
  function LatticeIndex(n: nat, a: nat, b: nat, c: nat): nat
  {
    (a * n + b) * n + c
  }

  /** The plane at `x = xs[a]` holds `n * n` points. */
  lemma CubicPlaneLength(xs: seq<real>, a: nat)
    requires a < |xs|
    ensures |CubicPlane(xs, a)| == |xs| * |xs|
  {
    var n := |xs|;
    FlattenUniformLength(CubicLines(xs, a), n);
  }

  /** The plane at `x = xs[a]` lists `[xs[a], xs[b], xs[c]]` at position `b * n + c`. */
  lemma CubicPlanePoint(xs: seq<real>, a: nat, b: nat, c: nat)
    requires a < |xs| && b < |xs| && c < |xs|
    ensures b * |xs| + c < |CubicPlane(xs, a)|
    ensures CubicPlane(xs, a)[b * |xs| + c] == [xs[a], xs[b], xs[c]]
  {
    var n := |xs|;
    FlattenUniformElement(CubicLines(xs, a), n, b, c);
  }

  /** The cube holds `n^3` points. */
  lemma CubicSpaceLength(xs: seq<real>)
    ensures |CubicSpace(xs)| == |xs| * |xs| * |xs|
  {
    var n := |xs|;
    var planes := CubicPlanes(xs);
    forall a | 0 <= a < n
      ensures |planes[a]| == n * n
    {
      CubicPlaneLength(xs, a);
    }
    assert Uniform(planes, n * n);
    FlattenUniformLength(planes, n * n);
  }

  /** Lattice point `(a, b, c)` of `sample_cubic_space` sits at `LatticeIndex(n, a, b, c)`. */
  lemma CubicSpacePoint(xs: seq<real>, a: nat, b: nat, c: nat)
    requires a < |xs| && b < |xs| && c < |xs|
    ensures LatticeIndex(|xs|, a, b, c) < |CubicSpace(xs)|
    ensures CubicSpace(xs)[LatticeIndex(|xs|, a, b, c)] == [xs[a], xs[b], xs[c]]
  {
    var n := |xs|;
    var planes := CubicPlanes(xs);
    forall a' | 0 <= a' < n
      ensures |planes[a']| == n * n
    {
      CubicPlaneLength(xs, a');
    }
    assert Uniform(planes, n * n);
    CubicPlanePoint(xs, a, b, c);
    FlattenUniformElement(planes, n * n, a, b * n + c);
    LatticeIndexSplits(n, a, b, c);
  }

  /** The lattice position is block `a` of `n * n` points, then row `b` of `n`, then `c`. */
  lemma LatticeIndexSplits(n: nat, a: nat, b: nat, c: nat)
    ensures LatticeIndex(n, a, b, c) == a * (n * n) + (b * n + c)
  {
    calc {
      LatticeIndex(n, a, b, c);
      (a * n + b) * n + c;
      { assert (a * n + b) * n == (a * n) * n + b * n; }
      (a * n) * n + b * n + c;
      { assert (a * n) * n == a * (n * n); }
      a * (n * n) + (b * n + c);
    }
  }

  /** `sample_cubic_space` emits `n^3` points, `x` outermost and `z` innermost. */
  lemma CubicSpaceLayout(xs: seq<real>)
    ensures |CubicSpace(xs)| == |xs| * |xs| * |xs|
    ensures forall a, b, c :: 0 <= a < |xs| && 0 <= b < |xs| && 0 <= c < |xs| ==>
      LatticeIndex(|xs|, a, b, c) < |CubicSpace(xs)| &&
      CubicSpace(xs)[LatticeIndex(|xs|, a, b, c)] == [xs[a], xs[b], xs[c]]
  {
    CubicSpaceLength(xs);
    forall a, b, c | 0 <= a < |xs| && 0 <= b < |xs| && 0 <= c < |xs|
      ensures LatticeIndex(|xs|, a, b, c) < |CubicSpace(xs)|
      ensures CubicSpace(xs)[LatticeIndex(|xs|, a, b, c)] == [xs[a], xs[b], xs[c]]
    {
      CubicSpacePoint(xs, a, b, c);
    }
  }

  /** Every coordinate of every lattice point is one of the sweep values. */
  lemma CubicSpaceCoordinates(xs: seq<real>)
    ensures forall k, i :: 0 <= k < |CubicSpace(xs)| && 0 <= i < 3 ==> CubicSpace(xs)[k][i] in xs
  {
    var n := |xs|;
    var onLattice := (p: Vec3) => p[0] in xs && p[1] in xs && p[2] in xs;
    var planes := CubicPlanes(xs);
    forall a, j | 0 <= a < n && 0 <= j < |planes[a]|
      ensures onLattice(planes[a][j])
    {
      FlattenKeeps(CubicLines(xs, a), onLattice);
    }
    FlattenKeeps(planes, onLattice);
  }

  /** `Field.sample` over the sweep values `xs`: for every lattice point `p` of
      `sample_cubic_space`, in its order, the segment from `p` to `p + scaler * F(p)`. */
  function Sample(f: Field, xs: seq<real>, scaler: real): (vectors: seq<Segment>)
    ensures |vectors| == |CubicSpace(xs)|
    ensures forall k :: 0 <= k < |vectors| ==> vectors[k].start == CubicSpace(xs)[k]
    ensures forall k :: 0 <= k < |vectors| ==>
      Sub(vectors[k].tip, vectors[k].start) == Scale(f.CFunc(vectors[k].start), scaler)
  {
    var points := CubicSpace(xs);
    var vectors := seq(|points|, k requires 0 <= k < |points| =>
      Segment(points[k], Add(points[k], f.GetVector(points[k], scaler))));
    assert forall k :: 0 <= k < |vectors| ==>
      Sub(vectors[k].tip, vectors[k].start) == Scale(f.CFunc(vectors[k].start), scaler) by {
      forall k | 0 <= k < |vectors| {
        AddThenSub(points[k], f.GetVector(points[k], scaler));
      }
    }
    vectors
  }

  /** `Field.sample(range, density, scaler)` end to end: the lattice is the exact sweep of
      `range` with step `1 / density` on each axis, so it has `N^3` points for the sweep's
      trip count `N`, lattice point `(a, b, c)` at `LatticeIndex(N, a, b, c)`, all inside the cube. */
  method SampleOver(f: Field, range: Range, density: real, scaler: real) returns (vectors: seq<Segment>)
    requires density > 0.0
    ensures var n := IdealTripCount(range.lo, range.hi, 1.0 / density);
      |vectors| == n * n * n
    ensures var n := IdealTripCount(range.lo, range.hi, 1.0 / density);
      forall a, b, c :: 0 <= a < n && 0 <= b < n && 0 <= c < n ==>
        LatticeIndex(n, a, b, c) < |vectors| &&
        vectors[LatticeIndex(n, a, b, c)].start ==
          [Nth(range.lo, 1.0 / density, a), Nth(range.lo, 1.0 / density, b), Nth(range.lo, 1.0 / density, c)]
    ensures forall k, i :: 0 <= k < |vectors| && 0 <= i < 3 ==> range.lo <= vectors[k].start[i] <= range.hi
    ensures forall k :: 0 <= k < |vectors| ==>
      Sub(vectors[k].tip, vectors[k].start) == Scale(f.CFunc(vectors[k].start), scaler)
  {
    var xs := Sweep(range.lo, range.hi, 1.0 / density);
    vectors := Sample(f, xs, scaler);
    CubicSpaceLayout(xs);
    CubicSpaceCoordinates(xs);
  }
}

=== FILE: vector_math.dfy ===
/**
 The vector operations the Stokes engine takes from its math library (add,
 subtract, scale, dot, cross), over exact reals, on fixed-length triples.
 */
module VectorMath {

  /** A point or a vector `[x, y, z]`; the engine does not tell the two apart. */
  type Vec3 = s: seq<real> | |s| == 3 witness [0.0, 0.0, 0.0]

  const Origin: Vec3 := [0.0, 0.0, 0.0]

  /** A line segment handed to the renderer: a start point and a tip point. */
  datatype Segment = Segment(start: Vec3, tip: Vec3)

  function Add(a: Vec3, b: Vec3): Vec3
  {
    [a[0] + b[0], a[1] + b[1], a[2] + b[2]]
  }

  function Sub(a: Vec3, b: Vec3): Vec3
  {
    [a[0] - b[0], a[1] - b[1], a[2] - b[2]]
  }

  /** Every component multiplied by `k`, as the in-place `scale` helper does to a fresh triple. */
  function Scale(a: Vec3, k: real): Vec3
  {
    [a[0] * k, a[1] * k, a[2] * k]
  }

  function Dot(a: Vec3, b: Vec3): real
  {
    a[0] * b[0] + a[1] * b[1] + a[2] * b[2]
  }

  /** The right-handed cross product. */
  function Cross(a: Vec3, b: Vec3): Vec3
  {
    [a[1] * b[2] - a[2] * b[1],
     a[2] * b[0] - a[0] * b[2],
     a[0] * b[1] - a[1] * b[0]]
  }

  /** The cross product is perpendicular to both of its factors. */
  lemma CrossIsOrthogonal(a: Vec3, b: Vec3)
    ensures Dot(Cross(a, b), a) == 0.0
    ensures Dot(Cross(a, b), b) == 0.0
  {
  }

  /** Swapping the factors negates the cross product. */
  lemma CrossIsAntiCommutative(a: Vec3, b: Vec3)
    ensures Cross(b, a) == Scale(Cross(a, b), -1.0)
  {
  }

  /** Two worked values: `x × y = z`, which fixes the right-handed orientation the Stokes sign
      depends on, and `[1,2,3]·[4,5,6] = 32`. */
  lemma BasisExamples()
    ensures Cross([1.0, 0.0, 0.0], [0.0, 1.0, 0.0]) == [0.0, 0.0, 1.0]
    ensures Dot([1.0, 2.0, 3.0], [4.0, 5.0, 6.0]) == 32.0
  {
  }

  /** Dot products telescope along a chain of differences with a fixed first factor. */
  lemma DotTelescopes(c: Vec3, p: Vec3, q: Vec3, s: Vec3)
    ensures Dot(c, Sub(q, p)) + Dot(c, Sub(s, q)) == Dot(c, Sub(s, p))
  {
  }

  /** Adding a vector and then subtracting the start point recovers the vector. */
  lemma AddThenSub(p: Vec3, v: Vec3)
    ensures Sub(Add(p, v), p) == v
  {
  }
}
